=== FILE: README.md ===
# Brorix84 in Dafny

A model of the core of the Brorix84 artificial-life simulation. The world
holds two kinds of creatures:

- **Scux** (`codes/scux.py`) are producers: small square bodies that lose
  energy as they age and die when it is used up.
- **Litix** (`codes/litix.py`) are foragers. They move over a
  1000 × 700 canvas and eat the Scux they touch. They pay a metabolic cost
  every tick. They keep a bounded memory table and steer with a
  reward-driven heading policy.

The **world** (`codes/brorix84.py`) advances a day / season / year calendar
and changes the background colour with the season. Once a day it runs a
population pass over each list: it ages every creature it visits and
removes the dead ones.

Everything is modelled as immutable data and pure functions. The one
imperative algorithm, the population pass, is a method. It is proved equal
to a functional reference definition.

Modules, one per file:

| module | file | models |
|---|---|---|
| `Common` | common.dfy | optional values (pandas NaN), status, Python `int(x / y)` and negative indexing, `np.ceil`, numpy's integer draws |
| `LitixState` | litix_state.dfy | the Litix record, its clamping property setters, `__init__`, the class invariant |
| `LitixMotion` | litix_motion.dfy | canvas clamping, centre update, heading re-draw, track list |
| `LitixEnergy` | litix_energy.dfy | feeding and metabolic cost, status, colour bucket |
| `LitixMemory` | litix_memory.dfy | memory table, short- and long-term rewards |
| `LitixCell` | litix_cell.dfy | heading policy and the full `_update_age` tick |
| `ScuxCell` | scux_cell.dfy | the Scux lifecycle |
| `Population` | population.dfy | Python's iterate-and-remove loop over a list |
| `Brorix84` | brorix84.dfy | calendar, background, list updates, one world day |

**Randomness.** A numpy draw is a parameter. For
`np.random.randint(lo, hi)` the parameter is a natural number `pick`, and
the value is `lo + pick % (hi - lo)`. Every pick gives a value in
`[lo, hi)`, and every such value comes from some pick (`RandIntCovers`).
`np.random.uniform` becomes a real parameter with a precondition giving its
range. The `np.random.random` draw of the heading policy becomes the
unconstrained real `u` of a `TickInput`: it is only compared with the
change probability, and every contract holds for any value of it.

**Outside inputs.** The canvas's answers are parameters of a
`TickInput`:

- the widths of the Scux in touch;
- the displacement `cell_speed * (cos, sin)` of the heading.

The day's Scux production rate is also a parameter.

**Arithmetic.** Energy ratios and rewards are exact `real`s.

## Model

| member | source | states |
|---|---|---|
| Common.RandInt | codes/litix.py:408 | `np.random.randint(lo, hi)`: every draw lies in the half-open range `[lo, hi)` |
| Common.RandIntCovers | codes/litix.py:408 | every value of `[lo, hi)` is reachable by some draw |
| Common.Ceil | codes/litix.py:235 | `np.ceil`: the least integer not below x |
| Common.TruncDiv | codes/litix.py:476-477 | `int(a / b)` for a positive divisor truncates toward zero: for a ≥ 0 the result r satisfies `b·r ≤ a < b·(r+1)`, for a < 0 it satisfies `b·(r-1) < a ≤ b·r` |
| Common.PyIndex | codes/brorix84.py:97 | Python list indexing: a negative index counts back from the end, and the result is a valid position |
| LitixState.SetProb | codes/litix.py:382-395 | the `direction_change_prob` setter yields a value of [0.10, 0.90]. It is the identity inside that range, and the result is the point of the range nearest to the value given |
| LitixState.SetWindow | codes/litix.py:402-415 | the `direction_angle_window` setter yields a value of [30, 90]. It is the identity inside that range and nearest to the value given |
| LitixState.SettersMonotoneIdempotent | codes/litix.py:382-415 | both clamping setters are monotone, and applying one twice changes nothing |
| LitixState.SetMetabolicCost | codes/litix.py:481-486 | a given metabolic cost below 1 becomes 1, and any other is kept |
| LitixState.DefaultMetabolicCost | codes/litix.py:475-480 | the default cost is at least 1. It is `cell_size / 100` (integer part) for a body of 100 pixels or more, and exactly 1 for every body smaller than 200 pixels |
| LitixState.DefaultSize | codes/litix.py:561-562 | the default body size is one of 14, 16, 18, 20 |
| LitixState.NormalizeSize | codes/litix.py:563-564 | a given size becomes even, bumping an odd size up by one |
| LitixState.InitSize | codes/litix.py:556-565 | the `cell_size` setter: a missing size is one of the default sizes, and a given one is normalised to an even size |
| LitixState.InitCost | codes/litix.py:470-486 | the `metabolic_cost` setter: a missing cost is the default `int(cell_size / 100)` floored at 1, and a given one goes through the clamp to at least 1 |
| LitixState.InitWindow | codes/litix.py:407-415 | a missing window is drawn from [30, 90), a given one is clamped by `SetWindow`. Either way it lies in [30, 90] |
| LitixState.InitProb | codes/litix.py:387-395 | a missing probability is the uniform draw from [0.4, 0.61), a given one is clamped by `SetProb`. Either way it lies in [0.10, 0.90] |
| LitixState.InitCenter | codes/litix.py:442-448 | a missing centre is drawn from [5, 995) × [5, 700). A given one is kept unchecked |
| LitixState.New | codes/litix.py:12-90 | the constructor runs every setter on its argument: a given size is normalised, a given maximum energy, sense range, memory size and heading are kept, the cost, window, probability and centre are those of their setters. The defaults are a maximum energy of size², a sense range of 2 · size, a memory of 100 rows and a heading in [0, 360). The creature starts alive at full energy and age 0, with empty memory and tracks and the first colour. With a positive maximum energy, the class invariant holds |
| LitixState.DefaultLitixValid | codes/litix.py:12-90 | a Litix built with all defaults is valid, has a maximum energy between 196 and 400, costs 1 per tick and remembers 100 rows |
| LitixMotion.CheckCanvasLimits | codes/litix.py:224-230 | the clamp returns the largest integer of [0, limit] not above the value: it is the limit or else within one of the non-negative part of the value |
| LitixMotion.CheckCanvasLimitsMonotone | codes/litix.py:224-230 | the clamp is monotone, and an integer already on the canvas is fixed |
| LitixMotion.UpdateCenter | codes/litix.py:294-312 | the new centre is on the 1000 × 700 canvas. Each axis moves to the floor of the displaced coordinate when that lies on the canvas, to the far edge when it overshoots, and to 0 when it falls below 0 |
| LitixMotion.UpdateCenterStill | codes/litix.py:294-312 | a zero displacement leaves a centre on the canvas in place |
| LitixMotion.RandomizeAngle | codes/litix.py:93-103 | the new heading is in `[angle - window, angle + window)`. For a negative window the `ValueError` fallback draws from the swapped range |
| LitixMotion.RandomizeAngleCovers | codes/litix.py:93-98 | every heading of the window can be drawn |
| LitixMotion.UpdateTracks | codes/litix.py:258-271 | the track list is the old list plus the new segment, minus the oldest segment once there are more than ten. It never holds more than ten |
| LitixEnergy.Feed | codes/litix.py:337-345 | feeding with a cap after every Scux, from an energy within the cap, gives `min(max, e + Σ w²)`. With any Scux touched, the result is at most the maximum |
| LitixEnergy.UpdateEnergyContent | codes/litix.py:336-350 | the new energy is `min(max, e + Σ w²) - cost`. It is at most `max - cost`, and with nothing touched it is `e - cost`, possibly negative |
| LitixEnergy.SumSquaresPermutation | codes/litix.py:338-342 | the energy eaten depends only on the multiset of Scux widths |
| LitixEnergy.FeedOrderIndependent | codes/litix.py:336-347 | feeding does not depend on the order the canvas reports the Scux in |
| LitixEnergy.UpdateStatus | codes/litix.py:353-362 | dead exactly when the energy is not positive or the Litix was dead already. The misspelt else branch never revives it |
| LitixEnergy.ColorIndexOfRatio | codes/litix.py:233-240 | the bucket is at most 9. It is 9 for an empty ratio, and for a ratio in (0, 1] it is the tenth that contains the ratio, counted from the top |
| LitixEnergy.ColorIndex | codes/litix.py:233-240 | the colour index of an energy within the maximum is a valid index of the ten default colours. It is 0 at full energy and 9 at none, and in between it is the bucket r with `(9 - r) · max < 10 · e <= (10 - r) · max`, that is `10 - ceil(10 e / max)` |
| LitixEnergy.ColorIndexMonotone | codes/litix.py:233-238 | more energy never gives a later colour |
| LitixEnergy.FeedingScenario | codes/litix.py:336-362 | worked cases: 50 + 25 − 5 = 70; the cap at 100 then the cost gives 95; an empty feed takes 3 to −2, which is dead |
| LitixMemory.Remember | codes/litix.py:147-150 | the memory is the last `max_memory_size` rows of the old memory plus the new row. The new row is last |
| LitixMemory.ShortTerm | codes/litix.py:173-175 | the short-term reward is undefined on the first row and defined on every later one |
| LitixMemory.ShortTermTelescopes | codes/litix.py:160-161 | the short-term rewards of rows 1..k add up to the change of the energy ratio since row 0 |
| LitixMemory.Rolling | codes/litix.py:177-181 | a rolling long-term reward is defined exactly when its ten-row window is complete and fully defined |
| LitixMemory.LongTermPolicy | codes/litix.py:163-171 | `long_term_reward_policy` is the mean of the ten rewards, the i-th weighted by `1 + 1/i`: `(2·w₀ + 3/2·w₁ + 4/3·w₂ + … + 11/10·w₉) / 10` |
| LitixMemory.WeightedSumTen | codes/litix.py:163-171 | the weighted sum of ten rewards, written out term by term with the weights 2, 3/2, 4/3, …, 11/10 |
| LitixMemory.LongTermRewards | codes/litix.py:173-183 | the `long_term_reward` column has one entry per memory row. With ten rows or fewer it is all NaN; with more, its last entry is defined and is the policy of the last ten short-term rewards |
| LitixMemory.EarlyRewardsUndefined | codes/litix.py:177-183 | with ten rows or fewer no rolling window of ten is complete, so every entry is NaN, and the NaN mean fills nothing |
| LitixMemory.FillNaN | codes/litix.py:183 | `fillna(mean)` keeps the defined entries, fills every NaN with the mean of the defined ones, and leaves an all-NaN column untouched |
| LitixMemory.RollingDefinedFrom | codes/litix.py:173-181 | the raw long-term reward is defined from row 10 on, and only there |
| LitixMemory.LastLongTermReward | codes/litix.py:173-183 | with more than ten rows, the last long-term reward is defined and is the policy of the last ten short-term rewards. The NaN fill never touches it |
| LitixMemory.WeightedSumConstant | codes/litix.py:163-171 | n equal rewards c weigh in as `c · (n + H(n))` |
| LitixMemory.LongTermOfConstant | codes/litix.py:163-171 | ten equal short-term rewards c give a long-term reward of `c · 32581/25200`, which differs from c unless c = 0 |
| LitixCell.LastLongTerm | codes/litix.py:116-117 | the reward the heading policy reads is the policy of the last ten energy-ratio differences |
| LitixCell.UpdateDirectionAngle | codes/litix.py:106-127 | only heading, window and probability change. With at most ten rows the heading is redrawn within the window. Otherwise the probability moves by the last long-term reward through its clamp. A draw at or above it widens the window and redraws the heading inside the new window; a draw below it narrows the window and keeps the heading |
| LitixCell.LiveSteps | codes/litix.py:365-373 | one live tick keeps the class invariant. Age goes up by one. The centre is the clamped displaced point, and the tracks are the old ones plus the segment from the old to the new centre, the oldest dropped beyond ten. The energy is `min(max, e + Σ w²) - cost` and the status is dead iff it is not positive. The colour is the bucket of the new energy ratio, and the memory is the old memory plus the row recording this tick, cut to `max_memory_size` rows |
| LitixCell.TickedFromFacts | codes/litix.py:365-373 | after a tick of a valid Litix the centre is on the canvas and the last track is the move just made. The energy stays a whole metabolic cost below the maximum, and the colour is a palette index. The memory grows by one row up to `max_memory_size`, and its last row records this tick |
| LitixCell.UpdateAge | codes/litix.py:365-375 | `_update_age` keeps the class invariant and every fixed attribute. A dead Litix is unchanged. A live one takes the logged steps of `LiveSteps` and then steers (`Steered`) from its old heading, window and probability on the memory it has just written: with ten rows or fewer the window and probability stay and the heading is redrawn in the window; otherwise the probability moves by the last long-term reward, and a draw at or above it widens the window and redraws the heading, a draw below it narrows the window and keeps the heading |
| LitixCell.SteeredFrom | codes/litix.py:106-127 | the heading policy run on a Litix carrying the old heading, window and probability steers as `Steered` states, reading the memory that Litix holds |
| LitixCell.RunInvariant | codes/litix.py:365-375 | over any run of ticks the invariant holds and death is final. A Litix alive at the end has aged once per tick |
| LitixCell.NewbornSurvivesFirstTick | codes/litix.py:365-375 | a Litix built with every default survives its first tick whatever it meets |
| ScuxCell.New | codes/scux.py:12-14 | a new Scux has a side of 3 to 6 and a full energy of side², 9 to 36 |
| ScuxCell.Decrement | codes/scux.py:49-50 | the loss per age tick (one world day) is `ceil(size² / 10)`, at least 1 for a non-empty body |
| ScuxCell.EnergyAt | codes/scux.py:48-55 | the energy at an age lies in [0, size²]. It is 0 exactly when age × loss reaches size², and always by age 10 |
| ScuxCell.EnergyNonIncreasing | codes/scux.py:48-55 | energy never grows with age |
| ScuxCell.EnergyStep | codes/scux.py:48-55 | the closed form is the recurrence: the energy starts at size², and each age tick takes one more `ceil(size² / 10)` from it, stopping at 0 |
| ScuxCell.UpdateEnergyContent | codes/scux.py:48-55 | only the energy changes, to the energy for the current age, within [0, size²] |
| ScuxCell.Die | codes/scux.py:72-75 | only the status changes, to dead |
| ScuxCell.UpdateAge | codes/scux.py:78-84 | age goes up by one, the energy is recomputed for the new age, and the Scux is dead exactly when that energy is 0 (or it already was) |
| ScuxCell.ColorIndex | codes/scux.py:58-67 | the colour is `colors[age]` below age 10 and the last colour after |
| ScuxCell.DeathAges | codes/scux.py:48-84 | a 4-pixel Scux dies at age 8, the other sizes at age 9 |
| ScuxCell.Lifecycle | codes/scux.py:78-84 | after n ageings a new Scux is n ticks old with the energy for age n. It is dead exactly when that is 0, and certainly once n ≥ 10 |
| Population.UpdateList | codes/brorix84.py:86-90 | the in-place iterate-and-remove loop computes exactly the element-by-element pass `Sweep` |
| Population.SweepLength | codes/brorix84.py:86-90 | the pass never grows the list. Since every removal makes the loop skip the next element, at least half of the list survives |
| Population.SweepPreserves | codes/brorix84.py:86-90 | a property that ageing preserves holds of every survivor |
| Population.SweepRemovesDead | codes/brorix84.py:86-90 | from a list with no dead members, no survivor is dead |
| Population.SweepKeepsOrder | codes/brorix84.py:86-90 | each survivor comes from an original element, aged or passed over, and survivors keep their relative order |
| Population.SkipsSuccessorOfRemoved | codes/brorix84.py:86-90 | in any list: when the pass keeps every element before position q and the element at q dies, the survivor that takes q's place is the original element q + 1, unaged, whatever ageing would have done to it |
| Population.SweepWithoutDeaths | codes/brorix84.py:86-90 | when no visited element dies, every element is aged once and the length is kept |
| Brorix84.AdvanceCalendar | codes/brorix84.py:109-121 | the day advances modulo 359. The season is cold exactly from advanced day 179 on, and the year grows exactly on the rollover |
| Brorix84.CalendarCounts | codes/brorix84.py:109-121 | after n days from the start the calendar shows day `n mod 359` of year `n div 359`. The season is cold exactly on days 179..358 and on each rollover day |
| Brorix84.BackgroundIndex | codes/brorix84.py:95-97 | the background changes exactly on days divisible by 10 |
| Brorix84.BackgroundIndexValid | codes/brorix84.py:95-97 | every such day the calendar can show reads a valid colour index. Day 0 reads the last colour |
| Brorix84.UpdateAppearance | codes/brorix84.py:95-97 | on a day divisible by 10 the background becomes colour `day / 10 - 1` of the 36, and on day 0 the last colour; on other days it is kept |
| Brorix84.Spawn | codes/brorix84.py:69-73 | the n Litix built with every default form a valid population of live Litix |
| Brorix84.TickAt | codes/brorix84.py:75-76 | the tick the pass gives a Litix keeps it valid with its fixed attributes, leaves a dead one alone, and is `_update_age` with that Litix's input |
| Brorix84.LitixSweepPopulation | codes/brorix84.py:75-79 | the Litix pass keeps every survivor valid and alive |
| Brorix84.SpawnSurvives | codes/brorix84.py:69-79 | freshly spawned Litix all survive their first pass |
| Brorix84.UpdateLitixList | codes/brorix84.py:67-81 | after the update every Litix is valid and alive. An empty list ends with exactly n Litix, and otherwise at least half the old list survives |
| Brorix84.ScuxPass | codes/brorix84.py:83-92 | after the Scux pass every Scux is alive, and at least half survive. If no old Scux dies on ageing, all old and new Scux are kept, each aged once in place |
| Brorix84.Born | codes/brorix84.py:84 | the day's new Scux are alive, age 0, of side 3 to 6 and full energy side², and each survives its first ageing |
| Brorix84.ScuxSweepKeepsAll | codes/brorix84.py:84-90 | when no old Scux dies on ageing, the pass keeps every old and new Scux, each aged once in its place |
| Brorix84.ScuxSweepOrigins | codes/brorix84.py:86-90 | every Scux left after the pass is one of the list, aged or passed over |
| Brorix84.UpdateScuxList | codes/brorix84.py:83-92 | the new Scux (none for a negative rate) are appended and the pass runs over the extended list. Every survivor is a Scux of that list, aged or passed over, and alive; at least half survive. If no old Scux dies, all are kept, each aged once in place |
| Brorix84.UpdateCalendar | codes/brorix84.py:109-131 | one world day advances the calendar, repaints the background as `update_appearance` does on days divisible by 10 and keeps it on the others, and replaces the Scux and Litix lists by their `update_scux_list` and `update_litix_list` results: at least half of the Scux list with the new ones and at least half of the Litix survive, and an extinct Litix population is replaced by ten. It keeps the world invariant: a day in range, a valid colour, only live creatures |
| Brorix84.InitialValid | codes/brorix84.py:31-41 | the initial world, on day 0 of year 0 in the hot season with the first colour and no creatures, satisfies the world invariant |

## Left out

- Tkinter drawing (ovals, rectangles, lines, colours, `canvas.update`) is not modelled. The canvas's answers are inputs:
  - the Scux widths in touch;
  - the displacement of the heading.
- `_update_feeling` and `_draw_cell` are left out for the same reason. So are the memory's `in_touch` and `in_range` counts, which only the CSV log reads.
- `cos`, `sin`, `radians` and `cell_speed` are left out as floating-point geometry. Their product is the `(dx, dy)` input of a tick.
- Temperature and day length (`update_temperature`, `update_day_length`) are left out as floating-point trigonometry. `SCUX_PRODUCTION_RATE` is the `nScux` input of a world day.
- All CSV and DataFrame logging is left out as file I/O: Brorix84's `_log_events` and the memory dump every ten ticks. `print` is left out too.
- Floating-point rounding of ratios and rewards is not modelled; reals are exact.
- The setters' `isinstance` assertions are not modelled. Types are enforced by Dafny.
- Custom `cell_colors` palettes are not modelled. The Litix colour is kept as a palette index.
- `codes/environment.py` is not part of this model.
- The Scux's random initial position is not modelled because only the canvas uses it.
- LitixMotion.RandomizeAngle: requires a non-zero window. With window 0 both `randint` calls raise; the setter keeps the window in [30, 90], so this never happens.
- LitixCell.UpdateDirectionAngle: requires the window to be in [30, 90], which the setter guarantees for every Litix.
- LitixState.New: requires the uniform draw in [0.4, 0.61). A non-positive `max_energy_content` is accepted, but the class invariant is only claimed when it is positive, because the ratio in `_log_events` divides by it.
- LitixState.Valid: `max_memory_size` is a natural number; a negative value, which pandas `tail` would treat differently, is not modelled.
- Brorix84.UpdateLitixList: the contract states the population invariant and bounds on the length. What each Litix does is stated per tick by LitixCell.UpdateAge.
- Brorix84.UpdateScuxList: requires exactly `max(0, nScux)` size draws, one per new Scux.

## Notes on the code

Behaviour of the code that its docstrings, comments and names do not
suggest, and which the model reproduces:

- **Probability and window changes.** They go through the property
  setters, so `direction_change_prob` is re-clamped to [0.10, 0.90] and the
  window to [30, 90] after every change.
- **Memory truncation.** The memory is cut to `max_memory_size` rows
  before the rewards are recomputed.
- **Feeding.** The energy gained from a Scux is the square of its canvas
  width, not the Scux's current energy. Scux that are eaten are deleted from
  the canvas but stay in the world's Scux list.
- **Long-term reward.** It is not a normalised average. Ten equal
  short-term rewards `c` give `c · 32581/25200`
  (LitixMemory.LongTermOfConstant), not `c`.
- **The death tick.** After a Litix dies, its heading is still updated on
  that tick. Its tracks are deleted from the canvas but stay in its track
  list. Its energy can be negative.
- **Default metabolic cost.** It is `max(1, int(cell_size / 100))`.
- **Scux colour.** The colour index of a Scux is capped only from above.
- **Empty Litix list.** It is refilled on every day it is found empty, not
  only on the first day.
- **The population pass.** Python's `for` loop over a list it removes from
  skips the element right after each removed one. That element is neither
  aged nor checked in that pass (Population.SkipsSuccessorOfRemoved).

=== FILE: brorix84.dfy ===
/** The Brorix84 world (codes/brorix84.py): the day, season and year
    calendar, the seasonal background colour, and the per-day maintenance
    of the Scux and Litix populations. Temperature, day length and the
    Scux production rate are sine-based floats and arrive as inputs. */
module Brorix84 {
  import opened Common
  import opened LitixState
  import opened LitixCell
  import ScuxCell
  import opened Population

  /** Days in one "year". */
  const OrbitalPeriod: int := 360

  /** Calls of `update_calendar` per calendar cycle: the day rolls over
      once it reaches `OrbitalPeriod - 1`. */
  const CycleLength: int := OrbitalPeriod - 1

  /** The first advanced day of the cold season, `OrbitalPeriod / 2 - 1`. */
  const ColdFrom: int := OrbitalPeriod / 2 - 1

  /** Litix raised on a day that starts with none. */
  const LitixPerSpawn: nat := 10

  /** The background colours, darkening towards mid-year and back. */
  const Background: seq<string> := [
    "#133c81", "#123a7c", "#113878", "#103674", "#0f346f", "#0f326b",
    "#0e3066", "#0d2e62", "#0d2c5e", "#0d2a59", "#0c2855", "#0c2651",
    "#0b244d", "#0b2348", "#0b2144", "#0b1f40", "#0a1d3c", "#0a1b38",
    "#0a1b38", "#0a1d3c", "#0b1f40", "#0b2144", "#0b2348", "#0b244d",
    "#0c2651", "#0c2855", "#0d2a59", "#0d2c5e", "#0d2e62", "#0e3066",
    "#0f326b", "#0f346f", "#103674", "#113878", "#123a7c", "#133c81"
  ]

  datatype Season = Hot | Cold

  datatype Calendar = Calendar(day: int, season: Season, year: int)

  /** Day 0 of year 0, in the hot season. */
  const Genesis: Calendar := Calendar(0, Hot, 0)

  /** Steps 1 and 2 of `update_calendar`: advance the day, set the season
      from the advanced day, then roll over to a new year at day 359. The
      season is decided before the rollover, so the rollover day ends at
      day 0 in the cold season. */
  function AdvanceCalendar(c: Calendar): (r: Calendar)
    ensures 0 <= c.day < CycleLength ==> 0 <= r.day < CycleLength
    ensures 0 <= c.day < CycleLength ==> r.day == (c.day + 1) % CycleLength
    ensures r.season == Cold <==> c.day + 1 >= ColdFrom
    ensures r.year == (if c.day + 1 >= CycleLength then c.year + 1 else c.year)
  {
    var day := c.day + 1;
    var season := if day as real >= OrbitalPeriod as real / 2.0 - 1.0 then Cold else Hot;
    if day >= CycleLength then Calendar(0, season, c.year + 1)
    else Calendar(day, season, c.year)
  }

  function CalendarAfter(n: nat): Calendar {
    if n == 0 then Genesis else AdvanceCalendar(CalendarAfter(n - 1))
  }

  /** After n days the calendar shows day n mod 359 of year n div 359
      (359 is `CycleLength`): a "year" of this calendar lasts 359 calls, and
      the season is cold from day 179 (`ColdFrom`) on and on each rollover
      day. */
  lemma {:induction false} CalendarCounts(n: nat)
    ensures CalendarAfter(n).day == n % CycleLength
    ensures CalendarAfter(n).year == n / CycleLength
    ensures n > 0 ==>
      (CalendarAfter(n).season == Cold <==> (n % CycleLength == 0 || n % CycleLength >= ColdFrom))
  {
    if n > 0 {
      CalendarCounts(n - 1);
      var d := (n - 1) % CycleLength;
      var y := (n - 1) / CycleLength;
      if d == CycleLength - 1 {
        DivModCycle(n, y + 1, 0);
      } else {
        DivModCycle(n, y, d + 1);
      }
    }
  }

  /** Division by the calendar's cycle length, from a decomposition. */
  lemma DivModCycle(n: int, y: int, d: int)
    requires 0 <= d < CycleLength && n == CycleLength * y + d
    ensures n / CycleLength == y && n % CycleLength == d
  {
  }

  /** `update_appearance`: on days that are multiples of 10 the background
      becomes `colors[int(day / 10) - 1]`; on the others it is unchanged. */
  function BackgroundIndex(day: int): (i: Option<int>)
    ensures i.Some? <==> day % 10 == 0
  {
    if day % 10 == 0 then Some(TruncDiv(day, 10) - 1) else None
  }

  /** On every day the calendar can show, the background index is a valid
      index of the 36 colours; day 0 reads index -1, the last colour. */
  lemma BackgroundIndexValid(day: int)
    requires 0 <= day < CycleLength && day % 10 == 0
    ensures -1 <= BackgroundIndex(day).value <= 34
    ensures -|Background| <= BackgroundIndex(day).value < |Background|
    ensures day == 0 ==> PyIndex(|Background|, BackgroundIndex(day).value) == |Background| - 1
  {
  }

  /** The background after the calendar moved to `day`. */
  function UpdateAppearance(bg: nat, day: int): (r: nat)
    requires 0 <= day < CycleLength
    ensures day % 10 == 0 ==> r < |Background|
    ensures day % 10 == 0 && day > 0 ==> r == day / 10 - 1
    ensures day == 0 ==> r == |Background| - 1
    ensures day % 10 != 0 ==> r == bg
  {
    match BackgroundIndex(day)
    case None => bg
    case Some(i) =>
      BackgroundIndexValid(day);
      PyIndex(|Background|, i)
  }

  function DeadLitix(l: Litix): bool { l.status == Dead }

  function DeadScux(s: ScuxCell.Scux): bool { s.status == Dead }

  /** A list of Litix as the world keeps it: valid and alive. */
  predicate LitixPopulation(ls: seq<Litix>) {
    forall j :: 0 <= j < |ls| ==> Valid(ls[j]) && ls[j].status == Alive
  }

  /** `n` Litix built with every default: a live, valid population. */
  function Spawn(draws: seq<Draws>): (ls: seq<Litix>)
    requires forall j :: 0 <= j < |draws| ==> DrawsInRange(draws[j])
    ensures |ls| == |draws|
    ensures LitixPopulation(ls)
    ensures forall j :: 0 <= j < |draws| ==> ls[j] == New(DefaultParams, draws[j])
  {
    var ls := seq(|draws|, j requires 0 <= j < |draws| => New(DefaultParams, draws[j]));
    assert LitixPopulation(ls) by {
      forall j | 0 <= j < |ls| ensures Valid(ls[j]) && ls[j].status == Alive {
        DefaultLitixValid(draws[j]);
      }
    }
    ls
  }

  /** The tick the Litix at original position j takes; positions with no
      input and invalid Litix never occur in a population pass. */
  function TickAt(ins: seq<TickInput>, j: nat, l: Litix): (r: Litix)
    ensures Valid(l) ==> Valid(r) && SameAttributes(l, r)
    ensures l.status == Dead ==> r == l
    ensures j < |ins| && Valid(l) ==> r == UpdateAge(l, ins[j])
  {
    if j < |ins| && Valid(l) then UpdateAge(l, ins[j]) else l
  }

  function LitixTick(ins: seq<TickInput>): (nat, Litix) -> Litix {
    (j: nat, l: Litix) => TickAt(ins, j, l)
  }

  /** Every tick keeps the class invariant. */
  lemma TickKeepsValid(ins: seq<TickInput>)
    ensures forall j, x :: Valid(x) && LitixTick(ins).requires(j, x) ==> Valid(LitixTick(ins)(j, x))
  {
    forall j: nat, x: Litix | Valid(x) && LitixTick(ins).requires(j, x)
      ensures Valid(LitixTick(ins)(j, x))
    {
      assert LitixTick(ins)(j, x) == TickAt(ins, j, x);
    }
  }

  /** The pass over a live population keeps it valid and alive. */
  lemma LitixSweepPopulation(pop: seq<Litix>, ins: seq<TickInput>)
    requires LitixPopulation(pop) && |ins| >= |pop|
    ensures Steppable(pop, LitixTick(ins))
    ensures LitixPopulation(Sweep(pop, 0, LitixTick(ins), DeadLitix, false))
    ensures |pop| / 2 <= |Sweep(pop, 0, LitixTick(ins), DeadLitix, false)| <= |pop|
  {
    var step := LitixTick(ins);
    assert Steppable(pop, step);
    SweepLength(pop, 0, step, DeadLitix, false);
    TickKeepsValid(ins);
    SweepPreserves(pop, 0, step, DeadLitix, false, Valid);
    SweepRemovesDead(pop, 0, step, DeadLitix, false);
    var r := Sweep(pop, 0, step, DeadLitix, false);
    forall j | 0 <= j < |r| ensures Valid(r[j]) && r[j].status == Alive {
      assert r[j] in r;
    }
  }

  /** A freshly spawned population loses nobody on its first pass. */
  lemma SpawnSurvives(draws: seq<Draws>, ins: seq<TickInput>)
    requires forall j :: 0 <= j < |draws| ==> DrawsInRange(draws[j])
    requires |ins| >= |draws|
    ensures LitixPopulation(Spawn(draws))
    ensures |Sweep(Spawn(draws), 0, LitixTick(ins), DeadLitix, false)| == |draws|
  {
    var pop := Spawn(draws);
    var step := LitixTick(ins);
    forall j | 0 <= j < |pop| ensures !DeadLitix(step(j, pop[j])) {
      NewbornSurvivesFirstTick(draws[j], ins[j]);
    }
    SweepWithoutDeaths(pop, 0, step, DeadLitix);
  }

  /** `update_litix_list`: a list found empty is refilled with `n` new
      Litix (on every extinction, not only the first day); then every Litix
      takes its tick through the iterate-and-remove pass. `ins[j]` is what
      the Litix at position j meets. */
  function UpdateLitixList(ls: seq<Litix>, n: nat, draws: seq<Draws>, ins: seq<TickInput>): (r: seq<Litix>)
    requires LitixPopulation(ls)
    requires |ls| == 0 ==> |draws| == n && forall j :: 0 <= j < n ==> DrawsInRange(draws[j])
    requires |ins| >= (if |ls| == 0 then n else |ls|)
    ensures LitixPopulation(r)
    ensures |ls| == 0 ==> |r| == n
    ensures |ls| / 2 <= |r| <= (if |ls| == 0 then n else |ls|)
  {
    if |ls| == 0 then
      SpawnSurvives(draws, ins);
      LitixSweepPopulation(Spawn(draws), ins);
      Sweep(Spawn(draws), 0, LitixTick(ins), DeadLitix, false)
    else
      LitixSweepPopulation(ls, ins);
      Sweep(ls, 0, LitixTick(ins), DeadLitix, false)
  }

  /** `update_age` of a Scux, whatever its position. */
  function AgeScux(j: nat, s: ScuxCell.Scux): ScuxCell.Scux {
    ScuxCell.UpdateAge(s)
  }

  /** The day's new Scux: fresh, alive and full, each of which survives its
      first ageing. */
  function Born(picks: seq<nat>): (b: seq<ScuxCell.Scux>)
    ensures |b| == |picks|
    ensures forall j :: 0 <= j < |b| ==>
      && b[j].age == 0 && b[j].status == Alive
      && 3 <= b[j].size <= 6 && b[j].energy == b[j].size * b[j].size
    ensures forall j :: 0 <= j < |b| ==> ScuxCell.UpdateAge(b[j]).status == Alive
  {
    var b := seq(|picks|, j requires 0 <= j < |picks| => ScuxCell.New(picks[j]));
    assert forall j :: 0 <= j < |b| ==> ScuxCell.UpdateAge(b[j]).status == Alive by {
      forall j | 0 <= j < |b| ensures ScuxCell.UpdateAge(b[j]).status == Alive {
        ScuxCell.Lifecycle(picks[j], 1);
      }
    }
    b
  }

  /** No Scux left after the pass is dead. */
  lemma ScuxSweepAlive(all: seq<ScuxCell.Scux>)
    requires forall j :: 0 <= j < |all| ==> all[j].status == Alive
    ensures forall j :: 0 <= j < |Sweep(all, 0, AgeScux, DeadScux, false)| ==>
      Sweep(all, 0, AgeScux, DeadScux, false)[j].status == Alive
    ensures |all| / 2 <= |Sweep(all, 0, AgeScux, DeadScux, false)| <= |all|
  {
    SweepLength(all, 0, AgeScux, DeadScux, false);
    SweepRemovesDead(all, 0, AgeScux, DeadScux, false);
    var r := Sweep(all, 0, AgeScux, DeadScux, false);
    forall j | 0 <= j < |r| ensures r[j].status == Alive {
      assert r[j] in r;
    }
  }

  /** New Scux survive their first ageing, so when no older Scux dies the
      pass keeps every Scux and ages each one in place. */
  lemma ScuxSweepKeepsAll(ss: seq<ScuxCell.Scux>, picks: seq<nat>)
    requires forall j :: 0 <= j < |ss| ==> ScuxCell.UpdateAge(ss[j]).status == Alive
    ensures |Sweep(ss + Born(picks), 0, AgeScux, DeadScux, false)| == |ss| + |picks|
    ensures forall k :: 0 <= k < |ss| + |picks| ==>
      Sweep(ss + Born(picks), 0, AgeScux, DeadScux, false)[k] == ScuxCell.UpdateAge((ss + Born(picks))[k])
  {
    var all := ss + Born(picks);
    forall j | 0 <= j < |all| ensures !DeadScux(AgeScux(j, all[j])) {
      if j >= |ss| {
        assert all[j] == Born(picks)[j - |ss|];
      }
    }
    SweepWithoutDeaths(all, 0, AgeScux, DeadScux);
  }

  /** Every Scux left after the pass is one of the list, aged or passed
      over. */
  lemma ScuxSweepOrigins(all: seq<ScuxCell.Scux>)
    ensures forall k :: 0 <= k < |Sweep(all, 0, AgeScux, DeadScux, false)| ==>
      exists j :: 0 <= j < |all| &&
        (Sweep(all, 0, AgeScux, DeadScux, false)[k] == all[j] ||
         Sweep(all, 0, AgeScux, DeadScux, false)[k] == ScuxCell.UpdateAge(all[j]))
  {
    var r := Sweep(all, 0, AgeScux, DeadScux, false);
    var idx := SweepKeepsOrder(all, 0, AgeScux, DeadScux, false);
    forall k | 0 <= k < |r|
      ensures exists j :: 0 <= j < |all| && (r[k] == all[j] || r[k] == ScuxCell.UpdateAge(all[j]))
    {
      var j := idx[k];
      assert ComesFrom(all, AgeScux, r[k], j);
      assert AgeScux(j, all[j]) == ScuxCell.UpdateAge(all[j]);
    }
  }

  /** `update_scux_list`: append the `n_scux` new Scux (`range` of a
      negative rate is empty), then age every Scux the iterate-and-remove
      pass visits. Every survivor is a Scux of the extended list, aged or
      passed over; when no old Scux dies, every one is aged in place. */
  function UpdateScuxList(ss: seq<ScuxCell.Scux>, nScux: int, picks: seq<nat>): (r: seq<ScuxCell.Scux>)
    requires |picks| == Max(0, nScux)
    requires forall j :: 0 <= j < |ss| ==> ss[j].status == Alive
    ensures forall j :: 0 <= j < |r| ==> r[j].status == Alive
    ensures (|ss| + |picks|) / 2 <= |r| <= |ss| + |picks|
    ensures (forall j :: 0 <= j < |ss| ==> ScuxCell.UpdateAge(ss[j]).status == Alive) ==>
      |r| == |ss| + |picks|
    ensures (forall j :: 0 <= j < |ss| ==> ScuxCell.UpdateAge(ss[j]).status == Alive) ==>
      forall k :: 0 <= k < |r| ==> r[k] == ScuxCell.UpdateAge((ss + Born(picks))[k])
    ensures forall k :: 0 <= k < |r| ==>
      exists j :: 0 <= j < |ss| + |picks| &&
        (r[k] == (ss + Born(picks))[j] || r[k] == ScuxCell.UpdateAge((ss + Born(picks))[j]))
  {
    ScuxPass(ss, picks);
    ScuxSweepOrigins(ss + Born(picks));
    Sweep(ss + Born(picks), 0, AgeScux, DeadScux, false)
  }

  lemma ScuxPass(ss: seq<ScuxCell.Scux>, picks: seq<nat>)
    requires forall j :: 0 <= j < |ss| ==> ss[j].status == Alive
    ensures forall j :: 0 <= j < |Sweep(ss + Born(picks), 0, AgeScux, DeadScux, false)| ==>
      Sweep(ss + Born(picks), 0, AgeScux, DeadScux, false)[j].status == Alive
    ensures (|ss| + |picks|) / 2 <= |Sweep(ss + Born(picks), 0, AgeScux, DeadScux, false)| <= |ss| + |picks|
    ensures (forall j :: 0 <= j < |ss| ==> ScuxCell.UpdateAge(ss[j]).status == Alive) ==>
      && |Sweep(ss + Born(picks), 0, AgeScux, DeadScux, false)| == |ss| + |picks|
      && forall k :: 0 <= k < |ss| + |picks| ==>
           Sweep(ss + Born(picks), 0, AgeScux, DeadScux, false)[k] == ScuxCell.UpdateAge((ss + Born(picks))[k])
  {
    var all := ss + Born(picks);
    assert forall j :: 0 <= j < |all| ==> all[j].status == Alive;
    ScuxSweepAlive(all);
    if forall j :: 0 <= j < |ss| ==> ScuxCell.UpdateAge(ss[j]).status == Alive {
      ScuxSweepKeepsAll(ss, picks);
    }
  }

  datatype World = World(
    calendar: Calendar,
    background: nat,
    scux: seq<ScuxCell.Scux>,
    litix: seq<Litix>
  )

  /** `Brorix84.__init__`: day 0, hot, year 0, first colour, no life. */
  const Initial: World := World(Genesis, 0, [], [])

  predicate WorldValid(w: World) {
    && 0 <= w.calendar.day < CycleLength
    && w.background < |Background|
    && (forall j :: 0 <= j < |w.scux| ==> w.scux[j].status == Alive)
    && LitixPopulation(w.litix)
  }

  /** `update_calendar`, one day of the world: calendar, background, Scux,
      then Litix. `nScux` is the day's `SCUX_PRODUCTION_RATE`. */
  function UpdateCalendar(w: World, nScux: int, scuxPicks: seq<nat>, litixDraws: seq<Draws>,
                          ins: seq<TickInput>): (r: World)
    requires WorldValid(w)
    requires |scuxPicks| == Max(0, nScux)
    requires |w.litix| == 0 ==>
      |litixDraws| == LitixPerSpawn && forall j :: 0 <= j < LitixPerSpawn ==> DrawsInRange(litixDraws[j])
    requires |ins| >= (if |w.litix| == 0 then LitixPerSpawn else |w.litix|)
    ensures WorldValid(r)
    ensures r.calendar == AdvanceCalendar(w.calendar)
    ensures r.calendar.day % 10 != 0 ==> r.background == w.background
    ensures r.calendar.day % 10 == 0 ==> r.background == UpdateAppearance(w.background, r.calendar.day)
    ensures r.scux == UpdateScuxList(w.scux, nScux, scuxPicks)
    ensures r.litix == UpdateLitixList(w.litix, LitixPerSpawn, litixDraws, ins)
    ensures (|w.scux| + Max(0, nScux)) / 2 <= |r.scux| <= |w.scux| + Max(0, nScux)
    ensures |w.litix| / 2 <= |r.litix|
    ensures |w.litix| == 0 ==> |r.litix| == LitixPerSpawn
  {
    var cal := AdvanceCalendar(w.calendar);
    var bg := UpdateAppearance(w.background, cal.day);
    var scux := UpdateScuxList(w.scux, nScux, scuxPicks);
    var litix := UpdateLitixList(w.litix, LitixPerSpawn, litixDraws, ins);
    World(cal, bg, scux, litix)
  }

  lemma InitialValid()
    ensures WorldValid(Initial)
  {
  }
}

=== FILE: common.dfy ===
/** Small shared vocabulary: optional values (pandas NaN), life status,
    Python integer helpers and the model of numpy's integer draws. */
module Common {

  /** A value that may be missing; `None` stands for a pandas NaN. */
  datatype Option<+T> = None | Some(value: T)

  /** The `status` attribute shared by Litix and Scux. */
  datatype Status = Alive | Dead

  function Min(a: int, b: int): int { if a <= b then a else b }

  function Max(a: int, b: int): int { if a <= b then b else a }

  /** `int(np.ceil(x))`: the least integer not below `x`. */
  function Ceil(x: real): (r: int)
    ensures (r - 1) as real < x <= r as real
  {
    -((-x).Floor)
  }

  /** Python's `int(a / b)` for a positive divisor: the quotient truncated
      toward zero (Dafny's own `/` rounds toward minus infinity). */
  function TruncDiv(a: int, b: int): (r: int)
    requires b > 0
    ensures a >= 0 ==> b * r <= a < b * (r + 1)
    ensures a < 0 ==> b * (r - 1) < a <= b * r
  {
    if a >= 0 then a / b else -((-a) / b)
  }

  /** `np.random.randint(lo, hi)`: a value of the half-open range [lo, hi).
      The draw itself is the parameter `pick`; any pick selects some value
      of the range. */
  function RandInt(lo: int, hi: int, pick: nat): (r: int)
    requires lo < hi
    ensures lo <= r < hi
  {
    lo + pick % (hi - lo)
  }

  /** Every value of the range is selected by some pick. */
  lemma RandIntCovers(lo: int, hi: int, v: int)
    requires lo <= v < hi
    ensures RandInt(lo, hi, v - lo) == v
  {
    assert (v - lo) % (hi - lo) == v - lo;
  }

  /** Python's indexing of a list of length `n`: a negative index counts
      from the end. */
  function PyIndex(n: nat, i: int): (k: nat)
    requires -(n as int) <= i < n
    ensures k < n
    ensures i >= 0 ==> k == i
    ensures i < 0 ==> k - n == i
  {
    if i < 0 then n + i else i
  }
}

=== FILE: litix_cell.dfy ===
/** One Litix tick: the heading policy `_update_direction_angle` and the
    lifecycle `_update_age` that strings the steps together
    (codes/litix.py:106-127, 365-375). Canvas queries, random draws and the
    trigonometric displacement arrive in a `TickInput`. */
module LitixCell {
  import opened Common
  import opened LitixState
  import opened LitixMotion
  import opened LitixEnergy
  import opened LitixMemory

  /** What one tick consumes from the outside world. */
  datatype TickInput = TickInput(
    dx: real,            // cell_speed * cos(radians(direction_angle))
    dy: real,            // cell_speed * sin(radians(direction_angle))
    touched: seq<int>,   // widths of the Scux bodies found in touch
    u: real,             // np.random.random()
    pick: nat            // the randint draw of the heading
  )

  /** The last entry of the `long_term_reward` column. */
  function LastLongTerm(mem: seq<Row>): (r: real)
    requires |mem| > RewardWindow
    ensures r == LongTermPolicy(LastDiffs(Ratios(mem)))
  {
    LongTermRewards(mem)[|mem| - 1].value
  }

  /** `_update_direction_angle`. With at most ten memory rows the heading
      is always redrawn in the current window. Otherwise the change
      probability moves by the last long-term reward (through its clamping
      setter); a draw at or above it widens the window and redraws the
      heading, a draw below it narrows the window and keeps the heading. */
  function UpdateDirectionAngle(l: Litix, u: real, pick: nat): (r: Litix)
    requires InWindowRange(l.window)
    ensures r == l.(angle := r.angle, window := r.window, prob := r.prob)
    ensures InWindowRange(r.window)
    ensures InProbRange(l.prob) ==> InProbRange(r.prob)
    ensures |l.memory| <= RewardWindow ==>
      && r.window == l.window && r.prob == l.prob
      && l.angle - l.window <= r.angle < l.angle + l.window
    ensures |l.memory| > RewardWindow ==>
      r.prob == SetProb(l.prob + LongTermPolicy(LastDiffs(Ratios(l.memory))))
    ensures |l.memory| > RewardWindow && u >= r.prob ==>
      && r.window == SetWindow(l.window + 1)
      && l.angle - r.window <= r.angle < l.angle + r.window
    ensures |l.memory| > RewardWindow && u < r.prob ==>
      r.window == SetWindow(l.window - 1) && r.angle == l.angle
  {
    if |l.memory| > RewardWindow then
      var prob := SetProb(l.prob + LastLongTerm(l.memory));
      if u >= prob then
        var window := SetWindow(l.window + 1);
        l.(prob := prob, window := window, angle := RandomizeAngle(l.angle, window, pick))
      else
        l.(prob := prob, window := SetWindow(l.window - 1))
    else
      l.(angle := RandomizeAngle(l.angle, l.window, pick))
  }

  /** Everything a tick leaves as it was. */
  predicate SameAttributes(a: Litix, b: Litix) {
    && a.id == b.id && a.cellSize == b.cellSize && a.maxMemory == b.maxMemory
    && a.maxEnergy == b.maxEnergy && a.metabolicCost == b.metabolicCost
    && a.senseRange == b.senseRange
  }

  /** What a live tick states about the forager it returns. */
  predicate TickedFrom(l: Litix, inp: TickInput, r: Litix)
    requires l.maxEnergy > 0
  {
    && SameAttributes(l, r)
    && r.age == l.age + 1
    && r.center == UpdateCenter(l.center, inp.dx, inp.dy)
    && r.tracks == UpdateTracks(l.tracks, Segment(l.center, r.center))
    && r.energy == Min(l.maxEnergy, l.energy + SumSquares(inp.touched)) - l.metabolicCost
    && (r.status == Dead <==> r.energy <= 0)
    && r.color == ColorIndex(r.energy, r.maxEnergy)
    && r.memory == Remember(l.memory,
         Row(r.age, r.color, Ratio(r.energy, r.maxEnergy), r.center.x, r.center.y, l.angle, r.status),
         l.maxMemory)
  }

  /** What follows from a tick of a valid Litix: the new centre is on the
      canvas, the last track is the move just made, the energy stays a
      whole metabolic cost below the maximum, the colour is a palette
      index and the last memory row records this tick. */
  lemma TickedFromFacts(l: Litix, inp: TickInput, r: Litix)
    requires Valid(l) && TickedFrom(l, inp, r)
    ensures OnCanvas(r.center)
    ensures |r.tracks| > 0 && r.tracks[|r.tracks| - 1] == Segment(l.center, r.center)
    ensures r.energy <= r.maxEnergy - r.metabolicCost
    ensures 0 <= r.color <= 9
    ensures |r.memory| == Min(|l.memory| + 1, l.maxMemory)
    ensures l.maxMemory > 0 ==>
              r.memory[|r.memory| - 1] ==
              Row(r.age, r.color, Ratio(r.energy, r.maxEnergy), r.center.x, r.center.y, l.angle, r.status)
  {
    var seg := Segment(l.center, r.center);
    assert (l.tracks + [seg])[|l.tracks|] == seg;
  }

  /** Steps 1 to 6 of a live tick (`age += 1` through `_log_events`). */
  function LiveSteps(l: Litix, inp: TickInput): (r: Litix)
    requires Valid(l) && l.status == Alive
    ensures TickedFrom(l, inp, r)
    ensures Valid(r)
    ensures r.angle == l.angle && r.window == l.window && r.prob == l.prob
  {
    var age := l.age + 1;
    var dest := UpdateCenter(l.center, inp.dx, inp.dy);
    var tracks := UpdateTracks(l.tracks, Segment(l.center, dest));
    var energy := UpdateEnergyContent(l.energy, l.maxEnergy, l.metabolicCost, inp.touched);
    var color := ColorIndex(energy, l.maxEnergy);
    var status := UpdateStatus(l.status, energy);
    var row := Row(age, color, Ratio(energy, l.maxEnergy), dest.x, dest.y, l.angle, status);
    l.(
      age := age, center := dest, tracks := tracks, energy := energy,
      color := color, status := status, memory := Remember(l.memory, row, l.maxMemory))
  }

  /** The heading policy's effect on a Litix `l` after a tick that ends in
      `r`: it reads the memory `r` ends with, and starts from the heading,
      window and probability of `l`. */
  predicate Steered(l: Litix, u: real, r: Litix) {
    && (|r.memory| <= RewardWindow ==>
          && r.window == l.window && r.prob == l.prob
          && l.angle - l.window <= r.angle < l.angle + l.window)
    && (|r.memory| > RewardWindow ==>
          r.prob == SetProb(l.prob + LongTermPolicy(LastDiffs(Ratios(r.memory)))))
    && (|r.memory| > RewardWindow && u >= r.prob ==>
          && r.window == SetWindow(l.window + 1)
          && l.angle - r.window <= r.angle < l.angle + r.window)
    && (|r.memory| > RewardWindow && u < r.prob ==>
          r.window == SetWindow(l.window - 1) && r.angle == l.angle)
  }

  /** `_update_age`: a dead Litix is left alone. A live one ages, moves,
      feeds and pays its metabolic cost, recolours, updates its status,
      logs a memory row and then, even when it has just died, updates its
      heading for the next tick from the memory it has just written. */
  function UpdateAge(l: Litix, inp: TickInput): (r: Litix)
    requires Valid(l)
    ensures Valid(r)
    ensures SameAttributes(l, r)
    ensures l.status == Dead ==> r == l
    ensures l.status == Alive ==> TickedFrom(l, inp, r)
    ensures l.status == Alive ==> Steered(l, inp.u, r)
  {
    if l.status == Dead then l
    else
      SteeredFrom(l, LiveSteps(l, inp), inp.u, inp.pick);
      UpdateDirectionAngle(LiveSteps(l, inp), inp.u, inp.pick)
  }

  /** The heading policy run on `m`, which carries the heading, window
      and probability of `l`, steers as `Steered` says. */
  lemma SteeredFrom(l: Litix, m: Litix, u: real, pick: nat)
    requires InWindowRange(m.window)
    requires m.angle == l.angle && m.window == l.window && m.prob == l.prob
    ensures Steered(l, u, UpdateDirectionAngle(m, u, pick))
  {
    assert UpdateDirectionAngle(m, u, pick).memory == m.memory;
  }

  /** A sequence of ticks. */
  function Run(l: Litix, ins: seq<TickInput>): Litix
    requires Valid(l)
    decreases |ins|
  {
    if |ins| == 0 then l else Run(UpdateAge(l, ins[0]), ins[1..])
  }

  /** Over any run the class invariant holds, death is final, and a Litix
      still alive at the end has aged once per tick. */
  lemma {:induction false} RunInvariant(l: Litix, ins: seq<TickInput>)
    requires Valid(l)
    ensures Valid(Run(l, ins))
    ensures l.status == Dead ==> Run(l, ins) == l
    ensures Run(l, ins).status == Alive ==> Run(l, ins).age == l.age + |ins|
    ensures Run(l, ins).age <= l.age + |ins|
    decreases |ins|
  {
    if |ins| > 0 {
      RunInvariant(UpdateAge(l, ins[0]), ins[1..]);
    }
  }

  /** A freshly built default forager survives its first tick whatever it
      meets: its full energy is at least 196 and it pays 1. */
  lemma NewbornSurvivesFirstTick(d: Draws, inp: TickInput)
    requires DrawsInRange(d)
    ensures Valid(New(DefaultParams, d))
    ensures UpdateAge(New(DefaultParams, d), inp).status == Alive
  {
    DefaultLitixValid(d);
  }
}

=== FILE: litix_energy.dfy ===
/** Energy accounting of a Litix: feeding on the Scux in touch, the
    metabolic charge, the alive/dead status and the colour bucket
    (codes/litix.py:233-240, 336-362). */
module LitixEnergy {
  import opened Common
  import opened LitixState

  /** Total energy of the Scux bodies in touch: each square body of width
      `w` (its canvas `x1 - x0`) is worth `w * w`. */
  function Square(w: int): (s: int)
    ensures s >= 0
  {
    w * w
  }

  function SumSquares(widths: seq<int>): (t: int)
    ensures t >= 0
  {
    if |widths| == 0 then 0 else Square(widths[0]) + SumSquares(widths[1..])
  }

  /** The feeding loop of `_update_energy_content`: add each Scux in turn
      and cap at `max` after every addition. From an energy not above the
      cap, the result is the capped total. */
  function Feed(e: int, max: int, widths: seq<int>): (r: int)
    ensures e <= max ==> r == Min(max, e + SumSquares(widths))
    ensures |widths| > 0 ==> r <= max
    ensures |widths| == 0 ==> r == e
    decreases |widths|
  {
    if |widths| == 0 then e
    else
      var fed := e + Square(widths[0]);
      Feed(if fed > max then max else fed, max, widths[1..])
  }

  /** `_update_energy_content`: feed, then charge the metabolic cost once.
      The result never exceeds `max - cost` and may be negative. */
  function UpdateEnergyContent(e: int, max: int, cost: int, widths: seq<int>): (r: int)
    ensures e <= max ==> r == Min(max, e + SumSquares(widths)) - cost
    ensures e <= max ==> r <= max - cost
    ensures widths == [] ==> r == e - cost
  {
    Feed(e, max, widths) - cost
  }

  lemma SumSquaresAppend(a: seq<int>, b: seq<int>)
    ensures SumSquares(a + b) == SumSquares(a) + SumSquares(b)
  {
    if |a| > 0 {
      assert (a + b)[0] == a[0];
      assert (a + b)[1..] == a[1..] + b;
      SumSquaresAppend(a[1..], b);
    } else {
      assert a + b == b;
    }
  }

  /** Taking one Scux out of the list takes its share out of the total. */
  lemma SumSquaresRemove(b: seq<int>, k: int)
    requires 0 <= k < |b|
    ensures SumSquares(b) == Square(b[k]) + SumSquares(b[..k] + b[k + 1..])
  {
    var pre, post := b[..k], b[k + 1..];
    SplitAt(b, k);
    SumSquaresCons(b[k], post);
    SumSquaresAppend(pre, [b[k]] + post);
    SumSquaresAppend(pre, post);
  }

  lemma SplitAt(b: seq<int>, k: int)
    requires 0 <= k < |b|
    ensures b == b[..k] + ([b[k]] + b[k + 1..])
  {
  }

  lemma SumSquaresCons(x: int, post: seq<int>)
    ensures SumSquares([x] + post) == Square(x) + SumSquares(post)
  {
    assert ([x] + post)[1..] == post;
  }

  lemma MultisetRemove(a: seq<int>, b: seq<int>, k: int)
    requires multiset(a) == multiset(b)
    requires |a| > 0 && 0 <= k < |b| && b[k] == a[0]
    ensures multiset(a[1..]) == multiset(b[..k] + b[k + 1..])
  {
    assert a == [a[0]] + a[1..];
    assert b == b[..k] + [b[k]] + b[k + 1..];
    assert multiset(a[1..]) == multiset(a) - multiset{a[0]};
    assert multiset(b[..k] + b[k + 1..]) == multiset(b) - multiset{a[0]};
  }

  /** The total does not depend on the order of the Scux. */
  lemma {:induction false} SumSquaresPermutation(a: seq<int>, b: seq<int>)
    requires multiset(a) == multiset(b)
    ensures SumSquares(a) == SumSquares(b)
    decreases |a|
  {
    if |a| == 0 {
      assert |b| == |multiset(b)| == 0;
    } else {
      assert a[0] in multiset(b);
      var k :| 0 <= k < |b| && b[k] == a[0];
      MultisetRemove(a, b, k);
      SumSquaresPermutation(a[1..], b[..k] + b[k + 1..]);
      SumSquaresRemove(b, k);
    }
  }

  /** Feeding is independent of the order in which the canvas reports the
      Scux in touch. */
  lemma FeedOrderIndependent(e: int, max: int, a: seq<int>, b: seq<int>)
    requires e <= max
    requires multiset(a) == multiset(b)
    ensures Feed(e, max, a) == Feed(e, max, b)
  {
    SumSquaresPermutation(a, b);
  }

  /** `_update_status`: dead once the energy is not positive. The other
      branch assigns a misspelt attribute, so the status never returns to
      alive. */
  function UpdateStatus(s: Status, energy: int): (r: Status)
    ensures r == Dead <==> (energy <= 0 || s == Dead)
  {
    if energy <= 0 then Dead else s
  }

  /** `energy_content / max_energy_content`, exactly. */
  function Ratio(e: int, max: int): real
    requires max > 0
  {
    e as real / max as real
  }

  /** `_update_current_color`: bucket `10 - ceil(10 * ratio)`, with 10 and
      above mapped to 9. A ratio in (0, 1] falls in the bucket whose tenth
      contains it; an empty or negative ratio gets the last colour. */
  function ColorIndexOfRatio(ratio: real): (r: int)
    ensures r <= 9
    ensures ratio <= 1.0 ==> 0 <= r
    ensures ratio <= 0.0 ==> r == 9
    ensures 0.0 < ratio <= 1.0 ==> (9 - r) as real < 10.0 * ratio <= (10 - r) as real
  {
    var idx := 10 - Ceil(ratio * 10.0);
    if idx >= 10 then 9 else idx
  }

  function ColorIndex(e: int, max: int): (r: int)
    requires max > 0
    ensures e <= max ==> 0 <= r <= 9 && r < |Palette|
    ensures e <= 0 ==> r == 9
    ensures e == max ==> r == 0
    ensures 0 < e <= max ==> (9 - r) * max < 10 * e <= (10 - r) * max
  {
    RatioBounds(e, max);
    ColorBucket(e, max);
    ColorIndexOfRatio(Ratio(e, max))
  }

  /** The bucket of a ratio in (0, 1], multiplied out by the maximum:
      `10 - ceil(10 e / max)` in integers. */
  lemma ColorBucket(e: int, max: int)
    requires max > 0
    ensures 0 < e <= max ==>
      var r := ColorIndexOfRatio(Ratio(e, max));
      (9 - r) * max < 10 * e <= (10 - r) * max
  {
    if 0 < e <= max {
      RatioBounds(e, max);
      var r := ColorIndexOfRatio(Ratio(e, max));
      ScaledBounds(e, max, 9 - r, 10 - r);
    }
  }

  /** Bounds on `10 e / max`, multiplied out by the maximum. */
  lemma ScaledBounds(e: int, max: int, lo: int, hi: int)
    requires max > 0
    requires lo as real < 10.0 * Ratio(e, max) <= hi as real
    ensures lo * max < 10 * e <= hi * max
  {
    var m := max as real;
    var x := 10.0 * Ratio(e, max);
    assert x * m == (10 * e) as real;
    ScaleStrict(lo as real, x, m);
    ScaleStrict(x, hi as real, m);
    CastProduct(lo, max);
    CastProduct(hi, max);
    OrderFromReals(lo * max, 10 * e, lo as real * m, x * m);
    OrderFromReals(10 * e, hi * max, x * m, hi as real * m);
  }

  /** Integers ordered as the reals they equal. */
  lemma OrderFromReals(a: int, b: int, p: real, q: real)
    requires a as real == p && b as real == q
    ensures p < q ==> a < b
    ensures p <= q ==> a <= b
  {
  }

  /** Converting a product of integers to a real. */
  lemma CastProduct(a: int, b: int)
    ensures (a * b) as real == a as real * b as real
  {
  }

  /** Multiplying by a positive number keeps strict and weak order. */
  lemma ScaleStrict(a: real, b: real, m: real)
    requires m > 0.0
    ensures a < b ==> a * m < b * m
    ensures a <= b ==> a * m <= b * m
  {
    ScaleByPositive(b - a, m);
  }

  lemma RatioBounds(e: int, max: int)
    requires max > 0
    ensures e <= 0 ==> Ratio(e, max) <= 0.0
    ensures e > 0 ==> Ratio(e, max) > 0.0
    ensures e <= max ==> Ratio(e, max) <= 1.0
    ensures e == max ==> Ratio(e, max) == 1.0
  {
    var q := Ratio(e, max);
    assert q * max as real == e as real;
    ScaleByPositive(q, max as real);
  }

  lemma ScaleByPositive(q: real, m: real)
    requires m > 0.0
    ensures q > 0.0 ==> q * m > 0.0
    ensures q <= 0.0 ==> q * m <= 0.0
    ensures q > 1.0 ==> q * m > m
    ensures q < 1.0 ==> q * m < m
  {
  }

  /** More energy never gives a later colour. */
  lemma ColorIndexMonotone(a: real, b: real)
    requires a <= b
    ensures ColorIndexOfRatio(b) <= ColorIndexOfRatio(a)
  {
    assert Ceil(a * 10.0) <= Ceil(b * 10.0);
  }

  /** A full forager that touches a 5-pixel Scux: min(100, 50 + 25) - 5. */
  lemma FeedingScenario()
    ensures UpdateEnergyContent(50, 100, 5, [5]) == 70
    ensures UpdateEnergyContent(90, 100, 5, [6, 4]) == 95
    ensures UpdateEnergyContent(3, 100, 5, []) == -2
    ensures UpdateStatus(Alive, UpdateEnergyContent(3, 100, 5, [])) == Dead
  {
  }
}

=== FILE: litix_memory.dfy ===
/** The memory table of a Litix and the rewards derived from it
    (codes/litix.py:130-183): a bounded window of rows, the short-term
    reward (first difference of the energy ratio) and the long-term reward
    (a rolling weighted mean of ten short-term rewards). Reward arithmetic
    is exact over `real`; a pandas NaN is `None`. */
module LitixMemory {
  import opened Common
  import opened LitixState

  /** The number of short-term rewards one long-term reward combines. */
  const RewardWindow: nat := 10

  /** `_log_events`: append the row, then keep only the last `maxMemory`
      rows (`DataFrame.tail`), oldest first. */
  function Remember(mem: seq<Row>, row: Row, maxMemory: nat): (r: seq<Row>)
    ensures |r| == Min(|mem| + 1, maxMemory)
    ensures r == (mem + [row])[|mem| + 1 - |r|..]
    ensures maxMemory > 0 ==> r[|r| - 1] == row
  {
    var m := mem + [row];
    if |m| > maxMemory then m[|m| - maxMemory..] else m
  }

  /** The `energy` column: energy ratios, oldest first. */
  function Ratios(mem: seq<Row>): (r: seq<real>)
    ensures |r| == |mem|
    ensures forall j :: 0 <= j < |mem| ==> r[j] == mem[j].energy
  {
    seq(|mem|, j requires 0 <= j < |mem| => mem[j].energy)
  }

  /** `energy.diff()`: undefined for the first row. */
  function ShortTerm(ratios: seq<real>): (st: seq<Option<real>>)
    ensures |st| == |ratios|
    ensures |ratios| > 0 ==> st[0] == None
    ensures forall j :: 0 < j < |ratios| ==> st[j].Some?
  {
    seq(|ratios|, j requires 0 <= j < |ratios| =>
      if j == 0 then None else Some(ratios[j] - ratios[j - 1]))
  }

  /** The defined short-term rewards of rows 1..k, added up. */
  function SumDefined(st: seq<Option<real>>, k: nat): real
    requires k < |st|
  {
    if k == 0 then 0.0
    else SumDefined(st, k - 1) + (if st[k].Some? then st[k].value else 0.0)
  }

  /** The short-term rewards telescope: added up from row 1 to row k they
      give the change of the energy ratio since row 0. */
  lemma {:induction false} ShortTermTelescopes(ratios: seq<real>, k: nat)
    requires k < |ratios|
    ensures SumDefined(ShortTerm(ratios), k) == ratios[k] - ratios[0]
  {
    if k > 0 {
      ShortTermTelescopes(ratios, k - 1);
    }
  }

  /** `s_1 (1 + 1/1) + ... + s_n (1 + 1/n)`, oldest first. */
  function WeightedSum(w: seq<real>): real
  {
    if |w| == 0 then 0.0
    else WeightedSum(w[..|w| - 1]) + w[|w| - 1] * (1.0 + 1.0 / |w| as real)
  }

  /** `long_term_reward_policy`: `np.mean` of the ten weighted terms, the
      i-th (from 1, oldest first) weighted by `1 + 1/i`. */
  function LongTermPolicy(w: seq<real>): (r: real)
    requires |w| == RewardWindow
    ensures r == (2.0 * w[0] + 1.5 * w[1] + (4.0 / 3.0) * w[2] + 1.25 * w[3] + 1.2 * w[4]
                  + (7.0 / 6.0) * w[5] + (8.0 / 7.0) * w[6] + 1.125 * w[7] + (10.0 / 9.0) * w[8]
                  + 1.1 * w[9]) / 10.0
  {
    WeightedSumTen(w);
    WeightedSum(w) / RewardWindow as real
  }

  /** One more term of the weighted sum: the term at position k (from 0)
      weighs `1 + 1/(k+1)`. */
  lemma WeightedSumPrefix(w: seq<real>, k: nat, acc: real, c: real)
    requires k < |w| && c == 1.0 + 1.0 / (k + 1) as real
    requires WeightedSum(w[..k]) == acc
    ensures WeightedSum(w[..k + 1]) == acc + c * w[k]
  {
    assert w[..k + 1][..k] == w[..k];
  }

  /** The weighted sum of the first five terms, written out. */
  lemma WeightedSumFive(w: seq<real>)
    requires |w| >= 5
    ensures WeightedSum(w[..5]) == 2.0 * w[0] + 1.5 * w[1] + (4.0 / 3.0) * w[2] + 1.25 * w[3] + 1.2 * w[4]
  {
    assert w[..0] == [];
    var s1 := 2.0 * w[0];
    WeightedSumPrefix(w, 0, 0.0, 2.0);
    var s2 := s1 + 1.5 * w[1];
    WeightedSumPrefix(w, 1, s1, 1.5);
    var s3 := s2 + (4.0 / 3.0) * w[2];
    WeightedSumPrefix(w, 2, s2, 4.0 / 3.0);
    var s4 := s3 + 1.25 * w[3];
    WeightedSumPrefix(w, 3, s3, 1.25);
    WeightedSumPrefix(w, 4, s4, 1.2);
  }

  /** The weighted sum of ten terms, written out. */
  lemma WeightedSumTen(w: seq<real>)
    requires |w| == RewardWindow
    ensures WeightedSum(w) == 2.0 * w[0] + 1.5 * w[1] + (4.0 / 3.0) * w[2] + 1.25 * w[3] + 1.2 * w[4]
                              + (7.0 / 6.0) * w[5] + (8.0 / 7.0) * w[6] + 1.125 * w[7]
                              + (10.0 / 9.0) * w[8] + 1.1 * w[9]
  {
    WeightedSumFive(w);
    var s5 := 2.0 * w[0] + 1.5 * w[1] + (4.0 / 3.0) * w[2] + 1.25 * w[3] + 1.2 * w[4];
    var s6 := s5 + (7.0 / 6.0) * w[5];
    WeightedSumPrefix(w, 5, s5, 7.0 / 6.0);
    var s7 := s6 + (8.0 / 7.0) * w[6];
    WeightedSumPrefix(w, 6, s6, 8.0 / 7.0);
    var s8 := s7 + 1.125 * w[7];
    WeightedSumPrefix(w, 7, s7, 1.125);
    var s9 := s8 + (10.0 / 9.0) * w[8];
    WeightedSumPrefix(w, 8, s8, 10.0 / 9.0);
    WeightedSumPrefix(w, 9, s9, 1.1);
    assert w[..10] == w;
  }

  predicate AllDefined(w: seq<Option<real>>) {
    forall i :: 0 <= i < |w| ==> w[i].Some?
  }

  function Values(w: seq<Option<real>>): (v: seq<real>)
    requires AllDefined(w)
    ensures |v| == |w|
    ensures forall i :: 0 <= i < |w| ==> v[i] == w[i].value
  {
    seq(|w|, i requires 0 <= i < |w| => w[i].value)
  }

  /** `short_term_reward.rolling(window = 10).apply(policy)`: row j gets the
      policy of rows j-9..j when all ten are defined, NaN otherwise. */
  function Rolling(st: seq<Option<real>>): (lt: seq<Option<real>>)
    ensures |lt| == |st|
    ensures forall j :: 0 <= j < |st| ==>
      (lt[j].Some? <==> (j + 1 >= RewardWindow && AllDefined(st[j + 1 - RewardWindow..j + 1])))
  {
    seq(|st|, j requires 0 <= j < |st| =>
      if j + 1 >= RewardWindow && AllDefined(st[j + 1 - RewardWindow..j + 1])
      then Some(LongTermPolicy(Values(st[j + 1 - RewardWindow..j + 1])))
      else None)
  }

  /** The defined entries of a column, in order. */
  function Defined(col: seq<Option<real>>): (d: seq<real>)
    ensures |d| <= |col|
    ensures |d| == 0 <==> forall j :: 0 <= j < |col| ==> col[j].None?
  {
    if |col| == 0 then []
    else
      var last := col[|col| - 1];
      Defined(col[..|col| - 1]) + (if last.Some? then [last.value] else [])
  }

  function Sum(xs: seq<real>): real {
    if |xs| == 0 then 0.0 else Sum(xs[..|xs| - 1]) + xs[|xs| - 1]
  }

  /** `Series.mean()`, which skips NaN. */
  function Mean(xs: seq<real>): real
    requires |xs| > 0
  {
    Sum(xs) / |xs| as real
  }

  /** `fillna(mean)`: every NaN takes the mean of the defined entries; a
      column with no defined entry has a NaN mean and stays as it is. */
  function FillNaN(col: seq<Option<real>>): (r: seq<Option<real>>)
    ensures |r| == |col|
    ensures forall j :: 0 <= j < |col| && col[j].Some? ==> r[j] == col[j]
    ensures |Defined(col)| > 0 ==>
      forall j :: 0 <= j < |col| && col[j].None? ==> r[j] == Some(Mean(Defined(col)))
    ensures |Defined(col)| > 0 <==> AllDefined(r) && |r| > 0
    ensures |Defined(col)| == 0 ==> r == col
  {
    var d := Defined(col);
    if |d| == 0 then col
    else seq(|col|, j requires 0 <= j < |col| => if col[j].Some? then col[j] else Some(Mean(d)))
  }

  /** The whole `long_term_reward` column as `_update_reward` leaves it:
      all NaN while the memory holds at most ten rows, and ending with the
      policy of the last ten short-term rewards once it holds more. */
  function LongTermRewards(mem: seq<Row>): (lt: seq<Option<real>>)
    ensures |lt| == |mem|
    ensures |mem| <= RewardWindow ==> forall j :: 0 <= j < |mem| ==> lt[j].None?
    ensures |mem| > RewardWindow ==> lt[|mem| - 1] == Some(LongTermPolicy(LastDiffs(Ratios(mem))))
  {
    if |mem| <= RewardWindow then
      EarlyRewardsUndefined(mem);
      FillNaN(Rolling(ShortTerm(Ratios(mem))))
    else
      LastLongTermReward(mem);
      FillNaN(Rolling(ShortTerm(Ratios(mem))))
  }

  /** The ten most recent short-term rewards, oldest first. */
  function LastDiffs(ratios: seq<real>): (w: seq<real>)
    requires |ratios| > RewardWindow
    ensures |w| == RewardWindow
  {
    var n := |ratios|;
    seq(RewardWindow, i requires 0 <= i < RewardWindow => ratios[n - 10 + i] - ratios[n - 11 + i])
  }

  /** Before row 10 the rolling window still holds the undefined first
      difference, so the raw long-term reward is NaN; from row 10 on it is
      defined. */
  lemma RollingDefinedFrom(ratios: seq<real>, j: nat)
    requires j < |ratios|
    ensures Rolling(ShortTerm(ratios))[j].Some? <==> j >= RewardWindow
  {
    var st := ShortTerm(ratios);
    if j + 1 >= RewardWindow && j < RewardWindow {
      assert st[j + 1 - RewardWindow..j + 1][0] == st[0];
    }
  }

  /** The last rolling window holds exactly the last ten differences. */
  lemma LastWindow(ratios: seq<real>)
    requires |ratios| > RewardWindow
    ensures AllDefined(ShortTerm(ratios)[|ratios| - RewardWindow..])
    ensures Values(ShortTerm(ratios)[|ratios| - RewardWindow..]) == LastDiffs(ratios)
  {
    var st := ShortTerm(ratios);
    var n := |ratios|;
    var w := st[n - RewardWindow..];
    forall i | 0 <= i < RewardWindow
      ensures w[i] == Some(LastDiffs(ratios)[i])
    {
      assert w[i] == st[n - RewardWindow + i];
    }
    assert Values(w) == LastDiffs(ratios);
  }

  /** With more than ten ratios, the last raw long-term reward is the
      policy of the last ten differences. */
  lemma RawLastReward(ratios: seq<real>)
    requires |ratios| > RewardWindow
    ensures Rolling(ShortTerm(ratios))[|ratios| - 1] == Some(LongTermPolicy(LastDiffs(ratios)))
  {
    var st := ShortTerm(ratios);
    var n := |ratios|;
    LastWindow(ratios);
    assert st[n - RewardWindow..n] == st[n - RewardWindow..];
  }

  /** With more than ten rows, the last long-term reward, which the heading
      policy reads, is defined and equals the policy of the last ten
      short-term rewards; the NaN fill never touches it. */
  lemma LastLongTermReward(mem: seq<Row>)
    requires |mem| > RewardWindow
    ensures |FillNaN(Rolling(ShortTerm(Ratios(mem))))| == |mem|
    ensures FillNaN(Rolling(ShortTerm(Ratios(mem))))[|mem| - 1] == Some(LongTermPolicy(LastDiffs(Ratios(mem))))
  {
    RawLastReward(Ratios(mem));
  }

  /** With at most ten rows no rolling window is complete, so the column
      is all NaN, and its mean, NaN too, fills nothing. */
  lemma EarlyRewardsUndefined(mem: seq<Row>)
    requires |mem| <= RewardWindow
    ensures |FillNaN(Rolling(ShortTerm(Ratios(mem))))| == |mem|
    ensures forall j :: 0 <= j < |mem| ==> FillNaN(Rolling(ShortTerm(Ratios(mem))))[j].None?
  {
    var ratios := Ratios(mem);
    var raw := Rolling(ShortTerm(ratios));
    forall j | 0 <= j < |raw| ensures raw[j].None? {
      RollingDefinedFrom(ratios, j);
    }
  }

  /** `n` copies of one value. */
  function Constant(c: real, n: nat): (w: seq<real>)
    ensures |w| == n
    ensures forall i :: 0 <= i < n ==> w[i] == c
  {
    seq(n, i => c)
  }

  /** The harmonic number 1/1 + ... + 1/n. */
  function Harmonic(n: nat): real {
    if n == 0 then 0.0 else Harmonic(n - 1) + 1.0 / n as real
  }

  lemma {:induction false} WeightedSumConstant(c: real, n: nat)
    ensures WeightedSum(Constant(c, n)) == c * (n as real + Harmonic(n))
  {
    if n > 0 {
      assert Constant(c, n)[..n - 1] == Constant(c, n - 1);
      WeightedSumConstant(c, n - 1);
    }
  }

  /** The long-term reward is not a normalised average: ten equal
      short-term rewards `c` give `c * (1 + H(10) / 10)`, which is
      `c * 32581 / 25200`, not `c`. */
  lemma LongTermOfConstant(c: real)
    ensures LongTermPolicy(Constant(c, RewardWindow)) == c * 32581.0 / 25200.0
    ensures c != 0.0 ==> LongTermPolicy(Constant(c, RewardWindow)) != c
  {
    WeightedSumConstant(c, RewardWindow);
    assert Harmonic(10) == 7381.0 / 2520.0;
  }
}

=== FILE: litix_motion.dfy ===
/** Motion of a Litix: clamping of the centre to the canvas, the random
    re-draw of the heading, and the bounded list of drawn tracks
    (codes/litix.py:93-103, 224-230, 258-271, 294-312). The displacement
    `cell_speed * (cos, sin)` of the heading is an input. */
module LitixMotion {
  import opened Common
  import opened LitixState

  /** The non-negative part of a real. */
  function NonNeg(v: real): real { if v < 0.0 then 0.0 else v }

  /** `__check_canvas_limits(value, limit)`: the largest integer of
      [0, limit] that does not exceed `value` (0 when `value` is negative). */
  function CheckCanvasLimits(value: real, limit: int): (r: int)
    requires limit >= 0
    ensures 0 <= r <= limit
    ensures r as real <= NonNeg(value)
    ensures r == limit || NonNeg(value) < (r + 1) as real
  {
    if value > limit as real then limit
    else if value < 0.0 then 0
    else value.Floor
  }

  /** The clamp is monotone in the value, and an integer that already lies
      on the canvas is left where it is. */
  lemma CheckCanvasLimitsMonotone(a: real, b: real, limit: int, n: int)
    requires limit >= 0
    ensures a <= b ==> CheckCanvasLimits(a, limit) <= CheckCanvasLimits(b, limit)
    ensures 0 <= n <= limit ==> CheckCanvasLimits(n as real, limit) == n
  {
  }

  predicate OnCanvas(p: Point) {
    0 <= p.x <= CanvasWidth && 0 <= p.y <= CanvasHeight
  }

  /** `_update_center_coordinates` with the displacement `(dx, dy)` given:
      each axis is moved and clamped separately. */
  function UpdateCenter(c: Point, dx: real, dy: real): (n: Point)
    ensures OnCanvas(n)
    ensures 0.0 <= c.x as real + dx <= CanvasWidth as real ==> n.x == (c.x as real + dx).Floor
    ensures 0.0 <= c.y as real + dy <= CanvasHeight as real ==> n.y == (c.y as real + dy).Floor
    ensures c.x as real + dx > CanvasWidth as real ==> n.x == CanvasWidth
    ensures c.y as real + dy > CanvasHeight as real ==> n.y == CanvasHeight
    ensures c.x as real + dx < 0.0 ==> n.x == 0
    ensures c.y as real + dy < 0.0 ==> n.y == 0
  {
    Point(
      CheckCanvasLimits(c.x as real + dx, CanvasWidth),
      CheckCanvasLimits(c.y as real + dy, CanvasHeight))
  }

  /** A forager on the canvas that is not displaced stays where it is. */
  lemma UpdateCenterStill(c: Point)
    requires OnCanvas(c)
    ensures UpdateCenter(c, 0.0, 0.0) == c
  {
    CheckCanvasLimitsMonotone(0.0, 0.0, CanvasWidth, c.x);
    CheckCanvasLimitsMonotone(0.0, 0.0, CanvasHeight, c.y);
  }

  /** `_randomize_direction_angle`: `randint(angle - window, angle + window)`,
      and, when that range is empty (a negative window), the swapped range.
      A zero window makes both calls raise, so it is excluded. */
  function RandomizeAngle(angle: int, window: int, pick: nat): (r: int)
    requires window != 0
    ensures window > 0 ==> angle - window <= r < angle + window
    ensures window < 0 ==> angle + window <= r < angle - window
  {
    if angle - window < angle + window then
      RandInt(angle - window, angle + window, pick)
    else
      RandInt(angle + window, angle - window, pick)
  }

  /** Every heading of the window [angle - window, angle + window) can be
      drawn, and only those (the swapped fallback is unreachable for a
      positive window). */
  lemma RandomizeAngleCovers(angle: int, window: int, target: int)
    requires window > 0
    requires angle - window <= target < angle + window
    ensures RandomizeAngle(angle, window, target - (angle - window)) == target
  {
    RandIntCovers(angle - window, angle + window, target);
  }

  /** The number of tracks `_update_track_list` keeps. */
  const MaxTracks: nat := 10

  /** `_update_track_list`: append the new segment, then delete the oldest
      one when more than ten are drawn. */
  function UpdateTracks(tracks: seq<Segment>, s: Segment): (r: seq<Segment>)
    ensures |tracks| <= MaxTracks ==> |r| <= MaxTracks
    ensures |r| == (if |tracks| + 1 > MaxTracks then |tracks| else |tracks| + 1)
    ensures r == (tracks + [s])[|tracks| + 1 - |r|..]
  {
    var t := tracks + [s];
    if |t| > MaxTracks then t[1..] else t
  }
}

=== FILE: litix_state.dfy ===
/** The state of one Litix forager and its validated attributes: the
    property setters of the Litix class and the constructor defaults
    (codes/litix.py:12-90, 378-565). */
module LitixState {
  import opened Common

  /** Bounds the setters enforce. */
  const MinWindow: int := 30
  const MaxWindow: int := 90
  const MinProb: real := 0.10
  const MaxProb: real := 0.90

  /** The canvas is 1000 x 700 pixels. */
  const CanvasWidth: int := 1000
  const CanvasHeight: int := 700

  /** Default value of `max_memory_size`. */
  const DefaultMaxMemory: nat := 100

  /** The ten default colours of `cell_colors`, from full to empty. */
  const Palette: seq<string> := [
    "#ff8b15", "#fe9831", "#fda547", "#fcb15d", "#fbbc72",
    "#fac788", "#fad29e", "#f9dcb4", "#f8e5cb", "#f7efe3"
  ]

  /** The sizes `np.random.choice` draws from when no size is given. */
  const DefaultSizes: seq<int> := [14, 16, 18, 20]

  datatype Point = Point(x: int, y: int)

  /** A drawn track line from one centre to the next. */
  datatype Segment = Segment(origin: Point, destination: Point)

  /** One row of the memory table (`_log_events`). The `in_touch` and
      `in_range` digit strings are logging only and are not kept. */
  datatype Row = Row(
    age: nat,
    color: int,
    energy: real,     // energy_content / max_energy_content
    x: int,
    y: int,
    direction: int,
    status: Status
  )

  datatype Litix = Litix(
    id: nat,
    cellSize: int,
    maxMemory: nat,
    maxEnergy: int,
    metabolicCost: int,
    senseRange: int,
    angle: int,
    window: int,
    prob: real,
    center: Point,
    age: nat,
    status: Status,
    tracks: seq<Segment>,
    memory: seq<Row>,
    energy: int,
    color: int
  )

  /** What the constructor may be given; `None` asks for the default. */
  datatype Params = Params(
    cellSize: Option<int>,
    maxMemory: Option<nat>,
    maxEnergy: Option<int>,
    metabolicCost: Option<int>,
    senseRange: Option<int>,
    angle: Option<int>,
    window: Option<int>,
    prob: Option<real>,
    center: Option<Point>
  )

  /** `Litix(canvas)` with every optional argument left out. */
  const DefaultParams: Params :=
    Params(None, None, None, None, None, None, None, None, None)

  /** The random draws and the fresh identifier the constructor consumes. */
  datatype Draws = Draws(
    id: nat,
    sizePick: nat,
    anglePick: nat,
    windowPick: nat,
    probDraw: real,
    xPick: nat,
    yPick: nat
  )

  /** `np.random.uniform(0.4, 0.61)` returns a value of [0.4, 0.61). */
  predicate DrawsInRange(d: Draws) {
    0.4 <= d.probDraw < 0.61
  }

  predicate InWindowRange(w: int) { MinWindow <= w <= MaxWindow }

  predicate InProbRange(p: real) { MinProb <= p <= MaxProb }

  function Dist(a: real, b: real): real { if a <= b then b - a else a - b }

  /** Setter of `direction_change_prob`: the nearest value of [0.10, 0.90]. */
  function SetProb(v: real): (p: real)
    ensures InProbRange(p)
    ensures InProbRange(v) ==> p == v
    ensures forall q :: InProbRange(q) ==> Dist(p, v) <= Dist(q, v)
  {
    if v < MinProb then MinProb
    else if v > MaxProb then MaxProb
    else v
  }

  /** Setter of `direction_angle_window`: the nearest value of [30, 90]. */
  function SetWindow(v: int): (w: int)
    ensures InWindowRange(w)
    ensures InWindowRange(v) ==> w == v
    ensures forall u :: InWindowRange(u) ==> Dist(w as real, v as real) <= Dist(u as real, v as real)
  {
    if v < MinWindow then MinWindow
    else if v > MaxWindow then MaxWindow
    else v
  }

  /** The clamping setters are monotone and idempotent. */
  lemma SettersMonotoneIdempotent(a: real, b: real, m: int, n: int)
    ensures a <= b ==> SetProb(a) <= SetProb(b)
    ensures SetProb(SetProb(a)) == SetProb(a)
    ensures m <= n ==> SetWindow(m) <= SetWindow(n)
    ensures SetWindow(SetWindow(m)) == SetWindow(m)
  {
  }

  /** Setter of `metabolic_cost`: values below 1 become 1. */
  function SetMetabolicCost(v: int): (c: int)
    ensures c >= 1
    ensures c >= v
    ensures v >= 1 ==> c == v
  {
    if v >= 1 then v else 1
  }

  /** Default `metabolic_cost`: `int(cell_size / 100)`, at least 1. */
  function DefaultMetabolicCost(size: int): (c: int)
    ensures c >= 1
    ensures size < 200 ==> c == 1
    ensures size >= 100 ==> c == size / 100
  {
    var q := TruncDiv(size, 100);
    if q >= 1 then q else 1
  }

  /** `np.random.choice([14, 16, 18, 20])`. */
  function DefaultSize(pick: nat): (s: int)
    ensures s in DefaultSizes
    ensures s % 2 == 0 && 14 <= s <= 20
  {
    var i := pick % 4;
    assert i == 0 || i == 1 || i == 2 || i == 3;
    DefaultSizes[i]
  }

  /** Setter of `cell_size`: an odd size is bumped to the next even one. */
  function NormalizeSize(v: int): (s: int)
    ensures s % 2 == 0
    ensures v <= s <= v + 1
  {
    if v % 2 == 0 then v else v + 1
  }

  /** The class invariant the setters and `_update_age` maintain. */
  predicate Valid(l: Litix) {
    && InWindowRange(l.window)
    && InProbRange(l.prob)
    && l.metabolicCost >= 1
    && l.cellSize % 2 == 0
    && l.maxEnergy > 0
    && l.energy <= l.maxEnergy
    && (l.status == Alive <==> l.energy > 0)
    && |l.tracks| <= 10
    && |l.memory| <= l.maxMemory
  }

  /** The `cell_size` setter, `None` included. */
  function InitSize(v: Option<int>, pick: nat): (s: int)
    ensures s % 2 == 0
    ensures v.None? ==> s in DefaultSizes
    ensures v.Some? ==> s == NormalizeSize(v.value)
  {
    match v
    case None => DefaultSize(pick)
    case Some(n) => NormalizeSize(n)
  }

  /** The `metabolic_cost` setter, `None` included. */
  function InitCost(v: Option<int>, size: int): (c: int)
    ensures c >= 1
    ensures v.None? ==> c == DefaultMetabolicCost(size)
    ensures v.Some? ==> c == SetMetabolicCost(v.value)
  {
    match v
    case None => DefaultMetabolicCost(size)
    case Some(n) => SetMetabolicCost(n)
  }

  /** The `direction_angle_window` setter: `np.random.randint(30, 90)` when
      `None`. */
  function InitWindow(v: Option<int>, pick: nat): (w: int)
    ensures InWindowRange(w)
    ensures v.None? ==> 30 <= w < 90
    ensures v.Some? ==> w == SetWindow(v.value)
  {
    match v
    case None => RandInt(30, 90, pick)
    case Some(n) => SetWindow(n)
  }

  /** The `direction_change_prob` setter: the uniform draw when `None`. */
  function InitProb(v: Option<real>, draw: real): (p: real)
    requires 0.4 <= draw < 0.61
    ensures InProbRange(p)
    ensures v.None? ==> p == draw
    ensures v.Some? ==> p == SetProb(v.value)
  {
    match v
    case None => draw
    case Some(x) => SetProb(x)
  }

  /** The `center_coordinates` setter: a random point of
      [5, 995) x [5, 700) when `None`, otherwise the value as given. */
  function InitCenter(v: Option<Point>, xPick: nat, yPick: nat): (c: Point)
    ensures v.None? ==> 5 <= c.x < 995 && 5 <= c.y < 700
    ensures v.Some? ==> c == v.value
  {
    match v
    case None => Point(RandInt(5, 995, xPick), RandInt(5, 700, yPick))
    case Some(q) => q
  }

  /** `Litix.__init__`: every attribute goes through its setter, in the
      order of the source, so defaults see the normalised `cell_size`. */
  function New(p: Params, d: Draws): (l: Litix)
    requires DrawsInRange(d)
    ensures l.cellSize % 2 == 0
    ensures p.cellSize.None? ==> l.cellSize in DefaultSizes
    ensures p.maxEnergy.None? ==> l.maxEnergy == l.cellSize * l.cellSize
    ensures l.metabolicCost >= 1
    ensures InWindowRange(l.window) && InProbRange(l.prob)
    ensures p.angle.None? ==> 0 <= l.angle < 360
    ensures p.center.None? ==> 5 <= l.center.x < 995 && 5 <= l.center.y < 700
    ensures l.energy == l.maxEnergy && l.age == 0 && l.status == Alive
    ensures l.memory == [] && l.tracks == [] && l.color == 0
    ensures l.maxEnergy > 0 ==> Valid(l)
    ensures p.cellSize.Some? ==> l.cellSize == NormalizeSize(p.cellSize.value)
    ensures p.maxEnergy.Some? ==> l.maxEnergy == p.maxEnergy.value
    ensures l.metabolicCost == InitCost(p.metabolicCost, l.cellSize)
    ensures p.senseRange.None? ==> l.senseRange == 2 * l.cellSize
    ensures p.senseRange.Some? ==> l.senseRange == p.senseRange.value
    ensures p.maxMemory.None? ==> l.maxMemory == DefaultMaxMemory
    ensures p.maxMemory.Some? ==> l.maxMemory == p.maxMemory.value
    ensures l.window == InitWindow(p.window, d.windowPick)
    ensures l.prob == InitProb(p.prob, d.probDraw)
    ensures l.center == InitCenter(p.center, d.xPick, d.yPick)
    ensures p.angle.Some? ==> l.angle == p.angle.value
  {
    var size := InitSize(p.cellSize, d.sizePick);
    var maxEnergy := if p.maxEnergy.None? then size * size else p.maxEnergy.value;
    var sense := if p.senseRange.None? then 2 * size else p.senseRange.value;
    var angle := if p.angle.None? then RandInt(0, 360, d.anglePick) else p.angle.value;
    var maxMemory := if p.maxMemory.None? then DefaultMaxMemory else p.maxMemory.value;
    Litix(
      d.id, size, maxMemory, maxEnergy, InitCost(p.metabolicCost, size), sense,
      angle, InitWindow(p.window, d.windowPick), InitProb(p.prob, d.probDraw),
      InitCenter(p.center, d.xPick, d.yPick), 0, Alive, [], [], maxEnergy, 0)
  }

  /** A forager built with every default is valid, has a body of 14 to 20
      pixels, and pays the minimum metabolic cost of 1 per tick. */
  lemma DefaultLitixValid(d: Draws)
    requires DrawsInRange(d)
    ensures Valid(New(DefaultParams, d))
    ensures 196 <= New(DefaultParams, d).maxEnergy <= 400
    ensures New(DefaultParams, d).metabolicCost == 1
    ensures New(DefaultParams, d).maxMemory == DefaultMaxMemory
  {
    var l := New(DefaultParams, d);
    var s := DefaultSize(d.sizePick);
    assert l.cellSize == s && l.maxEnergy == s * s;
    assert s == 14 || s == 16 || s == 18 || s == 20;
  }
}

=== FILE: population.dfy ===
/** The population pass of Brorix84 (codes/brorix84.py:75-79, 86-90):
    `for x in xs: <age x>; if x is dead: xs.remove(x)`. Removing the
    current element while Python's list iterator walks the list shifts the
    next element into the slot just visited, so that element is skipped,
    neither aged nor checked, in this pass.

    `Sweep` describes the pass element by element over the original list;
    `UpdateList` is the index-based loop with in-place removal, and is
    proved to compute `Sweep`. The list holds distinct objects, so
    `remove(x)` deletes exactly the slot being visited. */
module Population {

  /** `step` may be applied to every element at its original position. */
  ghost predicate Steppable<T>(xs: seq<T>, step: (nat, T) --> T) {
    forall j :: 0 <= j < |xs| ==> step.requires(j, xs[j])
  }

  /** The pass over `xs[q..]`, the elements at original positions `q`
      onward; `skip` says the element before `q` was removed, so the one
      at `q` is passed over. `step(j, x)` ages the element found at
      original position `j`. */
  function Sweep<T>(xs: seq<T>, q: nat, step: (nat, T) --> T, dead: T -> bool, skip: bool): seq<T>
    requires q <= |xs| && Steppable(xs, step)
    decreases |xs| - q
  {
    if q == |xs| then []
    else if skip then [xs[q]] + Sweep(xs, q + 1, step, dead, false)
    else
      var y := step(q, xs[q]);
      if dead(y) then Sweep(xs, q + 1, step, dead, true)
      else [y] + Sweep(xs, q + 1, step, dead, false)
  }

  /** Python's `for` loop over a list it shrinks: `i` is the iterator's
      position in the live list and `removed` counts the removals so far,
      so the element at `i` started at position `i + removed`. After a
      removal the iterator still advances by one, past the element that
      moved into the freed slot. */
  method UpdateList<T>(xs: seq<T>, step: (nat, T) --> T, dead: T -> bool) returns (list: seq<T>)
    requires Steppable(xs, step)
    ensures list == Sweep(xs, 0, step, dead, false)
  {
    list := xs;
    var i: nat := 0;
    var removed: nat := 0;
    ghost var done: seq<T> := [];   // the settled prefix of `list`
    ghost var q: nat := 0;          // the original position the pass resumes at
    while i < |list|
      invariant q <= |xs| && q == |done| + removed
      invariant i == |done| || (i == |done| + 1 && q == |xs|)
      invariant list == done + xs[q..]
      invariant Sweep(xs, 0, step, dead, false) == done + Sweep(xs, q, step, dead, false)
      decreases |xs| - q
    {
      Visit(xs, step, dead, done, q, list, i);
      var x := step(i + removed, list[i]);
      if dead(x) {
        list, removed := list[..i] + list[i + 1..], removed + 1;
        if i < |list| {
          // the element shifted into the visited slot is passed over
          PassOver(xs, step, dead, done, q + 1);
          done, q := done + [xs[q + 1]], q + 2;
        } else {
          q := q + 1;
          AtEnd(xs, step, dead, done, true);
        }
      } else {
        list := list[..i] + [x] + list[i + 1..];
        done, q := done + [x], q + 1;
      }
      i := i + 1;
    }
    AtEnd(xs, step, dead, done, false);
  }

  /** Nothing is left to visit at the end of the original list. */
  lemma AtEnd<T>(xs: seq<T>, step: (nat, T) --> T, dead: T -> bool, done: seq<T>, skip: bool)
    requires Steppable(xs, step)
    ensures done + xs[|xs|..] == done
    ensures done + Sweep(xs, |xs|, step, dead, skip) == done
  {
  }

  /** The passed-over element joins the settled prefix. */
  lemma PassOver<T>(xs: seq<T>, step: (nat, T) --> T, dead: T -> bool, done: seq<T>, q: nat)
    requires q < |xs| && Steppable(xs, step)
    ensures |done + xs[q..]| == |done| + |xs| - q
    ensures done + xs[q..] == (done + [xs[q]]) + xs[q + 1..]
    ensures done + Sweep(xs, q, step, dead, true) == (done + [xs[q]]) + Sweep(xs, q + 1, step, dead, false)
  {
    assert xs[q..] == [xs[q]] + xs[q + 1..];
    Assoc(done, [xs[q]], xs[q + 1..]);
    assert Sweep(xs, q, step, dead, true) == [xs[q]] + Sweep(xs, q + 1, step, dead, false);
    Assoc(done, [xs[q]], Sweep(xs, q + 1, step, dead, false));
  }

  lemma Assoc<T>(a: seq<T>, b: seq<T>, c: seq<T>)
    ensures a + (b + c) == (a + b) + c
  {
  }

  /** Visiting the element at `i`, right after the settled prefix: it is
      deleted if its aged self is dead, and overwritten by it otherwise. */
  lemma Visit<T>(xs: seq<T>, step: (nat, T) --> T, dead: T -> bool, done: seq<T>, q: nat, list: seq<T>, i: nat)
    requires q < |xs| && Steppable(xs, step)
    requires list == done + xs[q..] && i == |done|
    ensures |list| == |done| + |xs| - q
    ensures i < |list| && list[i] == xs[q] && step.requires(q, list[i])
    ensures dead(step(q, xs[q])) ==>
      && list[..i] + list[i + 1..] == done + xs[q + 1..]
      && done + Sweep(xs, q, step, dead, false) == done + Sweep(xs, q + 1, step, dead, true)
    ensures !dead(step(q, xs[q])) ==>
      && list[..i] + [step(q, xs[q])] + list[i + 1..] == (done + [step(q, xs[q])]) + xs[q + 1..]
      && done + Sweep(xs, q, step, dead, false)
         == (done + [step(q, xs[q])]) + Sweep(xs, q + 1, step, dead, false)
  {
    assert list[..i] == done;
    assert list[i + 1..] == xs[q + 1..];
  }

  /** The pass never grows the list, and every removal is followed by a
      skip, so at least half of the elements survive. */
  lemma {:induction false} SweepLength<T>(xs: seq<T>, q: nat, step: (nat, T) --> T, dead: T -> bool, skip: bool)
    requires q <= |xs| && Steppable(xs, step)
    ensures |Sweep(xs, q, step, dead, skip)| <= |xs| - q
    ensures (if skip then |xs| - q + 1 else |xs| - q) / 2 <= |Sweep(xs, q, step, dead, skip)|
    decreases |xs| - q
  {
    if q < |xs| {
      SweepLength(xs, q + 1, step, dead, !skip && dead(step(q, xs[q])));
    }
  }

  /** A property every aged element keeps is kept by the whole pass. */
  lemma {:induction false} SweepPreserves<T>(xs: seq<T>, q: nat, step: (nat, T) --> T, dead: T -> bool,
                                             skip: bool, P: T -> bool)
    requires q <= |xs| && Steppable(xs, step)
    requires forall j :: q <= j < |xs| ==> P(xs[j])
    requires forall j, x :: P(x) && step.requires(j, x) ==> P(step(j, x))
    ensures forall y :: y in Sweep(xs, q, step, dead, skip) ==> P(y)
    decreases |xs| - q
  {
    if q < |xs| {
      SweepPreserves(xs, q + 1, step, dead, !skip && dead(step(q, xs[q])), P);
    }
  }

  /** No element that was aged and found dead is left in the list; so if
      nothing in the list was dead before the pass, nothing is after it. */
  lemma {:induction false} SweepRemovesDead<T>(xs: seq<T>, q: nat, step: (nat, T) --> T, dead: T -> bool,
                                               skip: bool)
    requires q <= |xs| && Steppable(xs, step)
    requires forall j :: q <= j < |xs| ==> !dead(xs[j])
    ensures forall y :: y in Sweep(xs, q, step, dead, skip) ==> !dead(y)
    decreases |xs| - q
  {
    if q < |xs| {
      SweepRemovesDead(xs, q + 1, step, dead, !skip && dead(step(q, xs[q])));
    }
  }

  /** Where a survivor came from: the original element when it was passed
      over, its aged self when it was visited. */
  ghost predicate ComesFrom<T>(xs: seq<T>, step: (nat, T) --> T, y: T, j: nat)
    requires Steppable(xs, step)
  {
    j < |xs| && (y == xs[j] || y == step(j, xs[j]))
  }

  /** The survivors keep their relative order: the k-th survivor comes from
      original position `idx[k]`, and these positions increase. */
  lemma {:induction false} SweepKeepsOrder<T>(xs: seq<T>, q: nat, step: (nat, T) --> T, dead: T -> bool,
                                              skip: bool) returns (idx: seq<nat>)
    requires q <= |xs| && Steppable(xs, step)
    ensures |idx| == |Sweep(xs, q, step, dead, skip)|
    ensures forall k :: 0 <= k < |idx| ==> q <= idx[k] && ComesFrom(xs, step, Sweep(xs, q, step, dead, skip)[k], idx[k])
    ensures forall k, m :: 0 <= k < m < |idx| ==> idx[k] < idx[m]
    decreases |xs| - q
  {
    if q == |xs| {
      idx := [];
    } else {
      var next := !skip && dead(step(q, xs[q]));
      var rest := SweepKeepsOrder(xs, q + 1, step, dead, next);
      if next {
        idx := rest;
      } else {
        idx := [q] + rest;
      }
    }
  }

  /** The element right after a removed one is passed over: if the pass
      from `p` keeps everything up to `q` and the element at `q` dies, the
      survivor in the slot of `q` is the original element at `q + 1`, kept
      as it was, without being aged, even if aging would have killed it. */
  lemma {:induction false} SkipsSuccessorOfRemoved<T>(xs: seq<T>, p: nat, q: nat, step: (nat, T) --> T,
                                                      dead: T -> bool)
    requires p <= q && q + 1 < |xs| && Steppable(xs, step)
    requires forall j :: p <= j < q ==> !dead(step(j, xs[j]))
    requires dead(step(q, xs[q]))
    ensures q - p < |Sweep(xs, p, step, dead, false)|
    ensures Sweep(xs, p, step, dead, false)[q - p] == xs[q + 1]
    decreases q - p
  {
    if p == q {
      assert Sweep(xs, p, step, dead, false) == Sweep(xs, p + 1, step, dead, true);
      assert Sweep(xs, p + 1, step, dead, true) == [xs[p + 1]] + Sweep(xs, p + 2, step, dead, false);
    } else {
      SkipsSuccessorOfRemoved(xs, p + 1, q, step, dead);
      assert Sweep(xs, p, step, dead, false) == [step(p, xs[p])] + Sweep(xs, p + 1, step, dead, false);
    }
  }

  /** When no visited element dies nothing is skipped, every element is
      aged, and the list keeps its length. */
  lemma {:induction false} SweepWithoutDeaths<T>(xs: seq<T>, q: nat, step: (nat, T) --> T, dead: T -> bool)
    requires q <= |xs| && Steppable(xs, step)
    requires forall j :: q <= j < |xs| ==> !dead(step(j, xs[j]))
    ensures |Sweep(xs, q, step, dead, false)| == |xs| - q
    ensures forall k :: 0 <= k < |xs| - q ==> Sweep(xs, q, step, dead, false)[k] == step(q + k, xs[q + k])
    decreases |xs| - q
  {
    if q < |xs| {
      SweepWithoutDeaths(xs, q + 1, step, dead);
    }
  }
}

=== FILE: scux_cell.dfy ===
/** The Scux producer (codes/scux.py): a square of side `size` whose energy
    decays by ceil(10 % of size^2) per age tick (one world day) until it is used up,
    at which point it dies. */
module ScuxCell {
  import opened Common

  /** The ten colours a Scux takes as it ages. */
  const Palette: seq<string> := [
    "#a1ff26", "#a6e91f", "#a4d319", "#a3bd13", "#9fa70e",
    "#918c0a", "#7a6b06", "#644d03", "#4e3601", "#382100"
  ]

  datatype Scux = Scux(age: nat, size: int, energy: int, status: Status)

  /** `Scux.__init__`: `size = np.random.randint(3, 7)` and a full energy
      of `size ** 2`. */
  function New(sizePick: nat): (s: Scux)
    ensures 3 <= s.size <= 6
    ensures 9 <= s.energy <= 36 && s.energy == s.size * s.size
    ensures s.age == 0 && s.status == Alive
  {
    var size := RandInt(3, 7, sizePick);
    assert size == 3 || size == 4 || size == 5 || size == 6;
    Scux(0, size, size * size, Alive)
  }

  /** `DECREMENT = np.ceil(MAX_ENERGY_CONTENT * 0.10)`, computed exactly. */
  function Decrement(size: int): (d: int)
    ensures d == Ceil((size * size) as real / 10.0)
    ensures size != 0 ==> d >= 1
    ensures 10 * d >= size * size
  {
    var sq := size * size;
    assert sq >= 0;
    (sq + 9) / 10
  }

  /** The energy `update_energy_content` sets at a given age:
      `size ** 2 - age * DECREMENT`, floored at 0. */
  function EnergyAt(size: int, age: nat): (e: int)
    ensures 0 <= e <= size * size
    ensures e == 0 <==> age * Decrement(size) >= size * size
    ensures age >= 10 ==> e == 0
  {
    var sq := size * size;
    var spent := age * Decrement(size);
    assert age >= 10 ==> spent >= 10 * Decrement(size) by {
      if age >= 10 {
        assert spent == 10 * Decrement(size) + (age - 10) * Decrement(size);
      }
    }
    if sq - spent < 0 then 0 else sq - spent
  }

  /** Energy never grows with age. */
  lemma {:induction false} EnergyNonIncreasing(size: int, a: nat, b: nat)
    requires a <= b
    ensures EnergyAt(size, b) <= EnergyAt(size, a)
  {
    var d := Decrement(size);
    assert d >= 0;
    assert b * d == a * d + (b - a) * d;
    assert (b - a) * d >= 0;
  }

  /** Each age tick costs `Decrement(size)` more, and the energy stops at
      0: the closed form `EnergyAt` is this recurrence from `size^2`. */
  lemma EnergyStep(size: int, a: nat)
    ensures EnergyAt(size, 0) == size * size
    ensures EnergyAt(size, a + 1) == Max(0, EnergyAt(size, a) - Decrement(size))
  {
    assert (a + 1) * Decrement(size) == a * Decrement(size) + Decrement(size);
  }

  /** `update_energy_content`: only the energy changes, and it stays
      within [0, size^2]. */
  function UpdateEnergyContent(s: Scux): (r: Scux)
    ensures r.(energy := s.energy) == s
    ensures 0 <= r.energy <= s.size * s.size
    ensures r.energy == EnergyAt(s.size, s.age)
  {
    s.(energy := EnergyAt(s.size, s.age))
  }

  /** `die`: the body is deleted from the canvas and the status set. */
  function Die(s: Scux): (r: Scux)
    ensures r.status == Dead
    ensures r.(status := s.status) == s
  {
    s.(status := Dead)
  }

  /** `update_age`: age by exactly one, recompute the energy, and die when
      it has reached zero. */
  function UpdateAge(s: Scux): (r: Scux)
    ensures r.age == s.age + 1 && r.size == s.size
    ensures r.energy == EnergyAt(s.size, s.age + 1)
    ensures r.status == Dead <==> (r.energy == 0 || s.status == Dead)
  {
    var aged := UpdateEnergyContent(s.(age := s.age + 1));
    if aged.energy == 0 then Die(aged) else aged
  }

  /** `update_appearance`: `colors[age]` below 10, `colors[-1]` after. */
  function ColorIndex(age: nat): (i: nat)
    ensures i < |Palette|
    ensures i <= age
    ensures age < |Palette| ==> i == age
    ensures age >= |Palette| ==> i == |Palette| - 1
  {
    if age < 10 then age else PyIndex(|Palette|, -1)
  }

  /** The ages at which the four possible sizes die: a 4-pixel Scux lasts
      8 ticks, the others 9. */
  lemma DeathAges()
    ensures EnergyAt(3, 8) == 1 && EnergyAt(3, 9) == 0
    ensures EnergyAt(4, 7) == 2 && EnergyAt(4, 8) == 0
    ensures EnergyAt(5, 8) == 1 && EnergyAt(5, 9) == 0
    ensures EnergyAt(6, 8) == 4 && EnergyAt(6, 9) == 0
  {
  }

  /** `n` calls of `update_age`. */
  function AgeTimes(s: Scux, n: nat): Scux
  {
    if n == 0 then s else UpdateAge(AgeTimes(s, n - 1))
  }

  /** The whole life of a Scux: after n calls its age is n, its energy is
      `EnergyAt(size, n)`, and it is dead exactly when that energy is 0,
      which happens by age 10 at the latest. */
  lemma {:induction false} Lifecycle(pick: nat, n: nat)
    ensures AgeTimes(New(pick), n).age == n
    ensures AgeTimes(New(pick), n).size == New(pick).size
    ensures n > 0 ==> AgeTimes(New(pick), n).energy == EnergyAt(New(pick).size, n)
    ensures AgeTimes(New(pick), n).status == Dead <==> EnergyAt(New(pick).size, n) == 0
    ensures n >= 10 ==> AgeTimes(New(pick), n).status == Dead
  {
    var s := New(pick);
    if n > 0 {
      Lifecycle(pick, n - 1);
      var prev := AgeTimes(s, n - 1);
      assert prev.age == n - 1 && prev.size == s.size;
      assert AgeTimes(s, n) == UpdateAge(prev);
      EnergyNonIncreasing(s.size, n - 1, n);
    } else {
      assert EnergyAt(s.size, 0) > 0;
    }
  }
}
